=== FILE: README.md ===
# PeerCall core in Dafny

PeerCall is a video-call application. It has an Express/Mongoose backend and
socket.io chat servers, plus a React frontend. This project models the core of
that application as pure Dafny functions over immutable data and proves
properties about them. The core consists of:

- **Real-time chat and rooms**:
  - the TypeScript socket server (`join-room`, `chat-message`, `leave-room`,
    `end-room`, `disconnect`);
  - the older in-memory JavaScript chat server;
  - the REST room controller;
  - the expired-session sweep.
- **Authentication**:
  - Google and GitHub account linking with session (de)serialisation;
  - access and refresh token issuing;
  - the `protect` bearer-token middleware;
  - the error middleware.
- **Avatars**: the multer filter and file naming, the upload handler and the
  default-avatar handler.
- **Frontend**:
  - call-quality grading and its badge;
  - the chat overlay as a reducer;
  - the OAuth landing page;
  - the sign-in and sign-up forms, with their shared field rules.

Modelling conventions:

- **Handlers as transitions.** Every socket or HTTP handler is a function from
  (state, inputs) to a new state plus what it sends. Socket emissions record
  their audience and the set of sockets they reached at that moment.
- **Store failures.** A `Store.StoreFault` names which store access of a
  handler throws, so every `catch` branch is reachable.
- **Fresh identifiers** (document ids) are parameters. An id that is already
  taken is modelled as the store throwing. A lookup by id (`findById`,
  `findByIdAndDelete`) also throws when the id is not 24 hexadecimal digits
  (`Store.ByIdThrows`).
- **Things outside the model are inputs.** This covers clocks, the JWT
  verifier, URL percent-decoding, `fetch` results and `localStorage` success.
- **JavaScript truthiness.** `Strings.Truthy` and `Strings.OrElse` model `||`
  on optional strings. `Strings.Trim` uses the ECMAScript whitespace set.

Module layout: `Wrappers` and `Strings` are shared helpers. `Presence`,
`Store`, `RoomModel` and `ChatHistory` are shared backend models. There is one
module per source file after that.

Where the code and its documentation disagree, the model follows the code:

- `end-room` checks no host identity.
- `join-room` never adds the joiner to the durable member list.
- `disconnect` only logs. socket.io has already taken the socket out of all
  its rooms by then, and no durable member list changes.
- The socket servers relay no WebRTC signalling.

## Model

| member | source | states |
|---|---|---|
| Strings.TrimEmptyIffAllSpace | frontend/src/components/ChatOverlay.tsx:53 | `trim()` yields "" exactly when every character is ECMAScript whitespace |
| Strings.TrimIdempotent | backend/src/utils/generateToken.ts:11 | trimming a trimmed string changes nothing |
| Strings.TrimPadded | backend/src/utils/generateToken.ts:11 | trimming whitespace padding off a word with non-space ends gives back exactly the word |
| Strings.Split | backend/src/middleware/authMiddleware.ts:5 | `split(c)` yields pieces free of `c` that join back with `c` into the original string |
| Strings.NatToString | frontend/src/pages/OAuthSuccess.tsx:58 | decimal rendering is a digit string whose value is the number, with no leading zero |
| Strings.LeadingZeroIgnored | backend/src/utils/generateToken.ts:12 | a leading zero does not change the value of a digit string |
| Presence.SocketsIn | backend/src/server.ts:35 | `io.to(room)` reaches exactly the sockets attached to the room |
| Presence.Attach | backend/src/server.ts:31 | `socket.join` adds the socket to that room only; its other rooms and every other room are unchanged |
| Presence.Detach | backend/src/server.ts:102 | `socket.leave` removes the socket from that room only |
| Presence.DetachAll | backend/src/server.ts:124 | `io.socketsLeave(room)` empties the room, and every socket keeps its other rooms |
| Presence.DetachSocket | backend/src/server.ts:150-152 | a closing socket is in no room afterwards; every other socket keeps its rooms, and each room loses only that socket |
| RoomModel.Without | backend/src/server.ts:107 | the member filter removes every occurrence of the user and keeps every other member's count |
| RoomModel.WithoutSplice | backend/src/server.ts:107 | removing a user from between two runs of members joins the two filtered runs, in order |
| RoomModel.WithoutKeepsNoDuplicates | backend/src/controllers/roomController.ts:67 | the member filter never introduces a duplicate member |
| ChatHistory.InRoom | backend/src/server.ts:38 | `find({ roomId })` returns the log's messages of that room, each as often as it is stored, and no other |
| ChatHistory.SortByTime | backend/src/server.ts:39 | the timestamp sort returns a timestamp-ordered permutation of its input |
| ChatHistory.SortOfSortedIsIdentity | backend/src/server.ts:39 | a log already in timestamp order is left unchanged by the sort |
| ChatHistory.RecentHistory | backend/src/server.ts:38-42 | the history holds min(50, room size) of the room's messages, only messages of that room, oldest first |
| ChatHistory.RecentHistoryIsWindow | backend/src/server.ts:38-42 | the history is a sub-multiset of the room's messages and no message left out is newer than one kept |
| ChatHistory.SuffixIsMostRecent | backend/src/server.ts:39-42 | taking the last n of a sorted list keeps it sorted and drops only messages no newer than those kept |
| ChatHistory.HistoryIsolation | backend/src/server.ts:38 | a message stored in one room leaves every other room's history unchanged |
| ChatHistory.LatestMessageEndsHistory | backend/src/server.ts:38-42 | with a monotone clock, the newest message of a room is the last entry of its history |
| SocketServer.JoinRoom | backend/src/server.ts:29-51 | `join-room`: the joiner enters the room and the room is told; the history goes to the joiner; the room's durable members (or []) go to the room; a failed store access, or a room id that is not a document id, sends an error to the joiner only; rooms and log are untouched |
| SocketServer.JoinHistoryIsRecentWindow | backend/src/server.ts:38-42 | the joiner's history is at most 50 of that room's messages, oldest first, the most recent ones |
| SocketServer.DefaultRoomJoinEndsInError | frontend/src/components/ChatOverlay.tsx:12 | the chat widget's default room "global" is not a document id, so its join ends in the error event and no member list is sent |
| SocketServer.ChatMessageHandler | backend/src/server.ts:54-87 | a message with non-empty room, user and text is appended once and broadcast to the room; an empty required field or a failed save stores nothing and sends an error to the sender only |
| SocketServer.SenderReceivesOwnMessage | backend/src/server.ts:66-86 | the sender receives its own broadcast exactly when its socket is in the room; a message with an empty field reaches the sender alone, as an error |
| SocketServer.ChatThenJoinDeliversMessage | backend/src/server.ts:29-87 | round trip: a saved message with non-empty fields is the last entry of the next joiner's history in that room, and other rooms' histories are unchanged |
| SocketServer.LeaveRoom | backend/src/server.ts:90-132 | `leave-room`: the leaver's socket leaves the room and receives nothing; the stored members are filtered; a throwing lookup or save sends nothing and changes no room; a throwing re-read sends only `user-left`; a throwing delete keeps the emptied room and sends only `user-left` and `update-members`; an emptied room is deleted, announced and every socket detached; rooms are never created |
| SocketServer.LeaveUpdatesMembersInOrder | backend/src/server.ts:105-118 | `update-members` after a leave lists the others in their original order, without the leaver |
| SocketServer.EndRoom | backend/src/server.ts:135-147 | `end-room` deletes the room, announces it to the sockets in it and detaches them all; a failed delete, including one for an id that is not a document id, changes nothing |
| SocketServer.EndRoomChecksNoHost | backend/src/server.ts:134-141 | any claimed host ends the room with the same resulting state: the room is gone when its id is a document id, and nothing changes otherwise |
| SocketServer.Disconnect | backend/src/server.ts:150-152 | a closed socket is in no room; every other socket keeps its rooms; no stored room or message changes and nothing is emitted |
| SocketServer.DisconnectedSocketMissesBroadcasts | backend/src/server.ts:74-79 | after a disconnect, no later chat broadcast reaches that socket |
| SocketServer.SocketHandlersKeepUniqueNames | backend/src/models/roomModel.ts:10 | every socket handler keeps room names unique |
| LegacyChatServer.RoomMessages | backend/server.js:30 | the filter keeps the room's messages, each as often as it occurs, and no other |
| LegacyChatServer.RoomMessagesAppend | backend/server.js:30-41 | pushing a message extends its own room's view by it and leaves every other room's view unchanged |
| LegacyChatServer.Last50 | backend/server.js:31 | `slice(-50)` is the suffix of length min(50, n), and the whole list when it is shorter |
| LegacyChatServer.JoinRoom | backend/server.js:27-32 | the joiner enters the room and alone receives the last min(50, n) of the room's n messages, in log order |
| LegacyChatServer.ChatMessageHandler | backend/server.js:34-45 | exactly one message is appended and broadcast to the sockets in the room |
| LegacyChatServer.Disconnect | backend/server.js:47-49 | a closed socket is in no room, every other socket keeps its rooms, the messages are unchanged and nothing is emitted |
| LegacyChatServer.DisconnectedSocketMissesMessages | backend/server.js:41 | after a disconnect, no later chat message reaches that socket |
| LegacyChatServer.HistoryIsRoomScoped | backend/server.js:27-45 | a message sent to room A is never replayed to joiners of room B, and is the newest entry replayed in A |
| RoomController.CreateRoom | backend/src/controllers/roomController.ts:16-30 | a missing or taken name gives 400; a throwing lookup, a throwing save or a taken id gives 500 "Server error"; 201 exactly when the name is new, non-empty and the store works, and then one room whose only member is the creator is added |
| RoomController.ListRooms | backend/src/controllers/roomController.ts:33-40 | read-only; answers with every room, or 500 |
| RoomController.JoinRoom | backend/src/controllers/roomController.ts:43-58 | 500 with nothing saved for a room id that is not a document id, a throwing lookup, or a throwing save of an appended caller; 404 for an unknown room; a caller already present gets 200 with the room unchanged whatever the save would do; the caller ends up a member and is appended only when absent; other rooms are untouched |
| RoomController.JoinIdempotent | backend/src/controllers/roomController.ts:49-52 | joining twice is the same as joining once |
| RoomController.LeaveRoom | backend/src/controllers/roomController.ts:61-74 | 500 with nothing saved for a room id that is not a document id, a throwing lookup or a throwing save; 404 for an unknown room; otherwise every occurrence of the caller is removed and the room is kept |
| RoomController.LeaveNeverDeletes | backend/src/controllers/roomController.ts:67-70 | the last member leaving over REST leaves an empty room in place |
| RoomController.CreateKeepsInvariants | backend/src/controllers/roomController.ts:21-25 | creating keeps names unique and member lists free of duplicates |
| RoomController.JoinKeepsInvariants | backend/src/controllers/roomController.ts:49-52 | joining keeps names unique and member lists free of duplicates |
| RoomController.LeaveKeepsInvariants | backend/src/controllers/roomController.ts:67-68 | leaving keeps names unique and member lists free of duplicates |
| SessionCleanup.Unexpired | backend/src/utils/sessionCleanup.ts:6-8 | the sweep keeps exactly the sessions expiring at or after `now`, as a sub-multiset of the input |
| SessionCleanup.CleanupExpiredSessions | backend/src/utils/sessionCleanup.ts:3-17 | a store error is rethrown; otherwise only unexpired sessions remain, all of them do, and the count equals the number of expired sessions |
| SessionCleanup.BoundaryIsKept | backend/src/utils/sessionCleanup.ts:7 | a session expiring exactly at `now` survives (`$lt`) |
| SessionCleanup.NothingExpiredDeletesNothing | backend/src/utils/sessionCleanup.ts:6-12 | with nothing expired, nothing is deleted and the count is 0 |
| SessionCleanup.CleanupIdempotent | backend/src/utils/sessionCleanup.ts:3-17 | a second sweep at the same time deletes nothing |
| OAuthLinking.GitHubEmail | backend/src/utils/passport.ts:77-79 | the first profile email, else the username's noreply address, else nothing |
| OAuthLinking.GoogleName | backend/src/utils/passport.ts:28 | displayName, then givenName, then "Google User"; never empty |
| OAuthLinking.GitHubName | backend/src/utils/passport.ts:80 | displayName, then username, then "GitHub User"; never empty |
| OAuthLinking.FindByEmail | backend/src/utils/passport.ts:35 | finds a user with the email, or reports that none has it |
| OAuthLinking.LinkOrCreate | backend/src/utils/passport.ts:35-55 | a fully linked user is returned unchanged; a user missing either SSO field gets both set to this provider; an unknown email creates one SSO user with an empty password; the result is a failure exactly when the lookup, the link save or the creation throws, and a failure changes nothing |
| OAuthLinking.GoogleVerify | backend/src/utils/passport.ts:25-57 | no email gives the "No email found in Google profile" error; otherwise it links or creates by email |
| OAuthLinking.GitHubVerify | backend/src/utils/passport.ts:70-110 | no email and no username gives the GitHub no-email error; otherwise it links or creates by the (possibly noreply) email |
| OAuthLinking.GitHubNeedsEmailOrUsername | backend/src/utils/passport.ts:77-85 | a GitHub profile with neither email nor username is rejected without touching the users |
| OAuthLinking.CrossProviderLinkKept | backend/src/utils/passport.ts:37-42 | a user already linked to GitHub who signs in with Google keeps the GitHub link |
| OAuthLinking.LinkOrCreateKeepsUniqueEmails | backend/src/utils/passport.ts:35-51 | because lookup precedes creation, emails stay unique |
| OAuthLinking.SerializeUser | backend/src/utils/passport.ts:114-116 | the session holds the user's id when it is non-empty, and nothing otherwise |
| OAuthLinking.DeserializeUser | backend/src/utils/passport.ts:118-125 | a store error, or an id that is not a document id, is passed on as an error; otherwise the user with that id, or nothing when there is none |
| OAuthLinking.SessionRoundTrip | backend/src/utils/passport.ts:114-125 | with unique document ids, serialising a stored user and deserialising its id gives back that user |
| ErrorHandler.NewAppError | backend/src/middleware/errorHandler.ts:5-14 | the message is kept; the status is the given one or 500; operational is the given flag or true |
| ErrorHandler.Classify | backend/src/middleware/errorHandler.ts:25-47 | later rules win: token expiry over a bad token over validation over duplicate key over cast error; unmatched errors keep their own message and status |
| ErrorHandler.HandleError | backend/src/middleware/errorHandler.ts:17-56 | the response always has a non-zero status, a non-empty message and `success: false`; a falsy status becomes 500 and an empty message "Internal Server Error"; stack and error are present exactly in development |
| ErrorHandler.NotFoundHandler | backend/src/middleware/errorHandler.ts:65-69 | an unknown route becomes an operational 404 naming the URL |
| ErrorHandler.AppErrorPassesThrough | backend/src/middleware/errorHandler.ts:48-50 | a thrown AppError comes out with its own status and message |
| ErrorHandler.NotFoundResponse | backend/src/middleware/errorHandler.ts:65-69 | an unknown route answers 404 "Not found - <url>" |
| ErrorHandler.JwtErrorsAre401 | backend/src/middleware/errorHandler.ts:39-47 | any JWT-named error is a 401 with the matching message, whatever else it carries |
| ErrorHandler.DuplicateWithoutKeys | backend/src/middleware/errorHandler.ts:29-33 | a duplicate-key error with no key information reports "undefined already exists" with 400 |
| ErrorHandler.EmptyValidationMessage | backend/src/middleware/errorHandler.ts:34-38 | a validation error with no field errors keeps 400 but falls back to "Internal Server Error" |
| ErrorHandler.UnclassifiedKeepsOwnFields | backend/src/middleware/errorHandler.ts:48-50 | an unrecognised error keeps its own status and message, with the fallbacks |
| GenerateToken.ParseExpiration | backend/src/utils/generateToken.ts:9-13 | a falsy value gives the fallback; a trimmed digit string gives its number of seconds; anything else gives the trimmed text |
| GenerateToken.PaddedDigits | backend/src/utils/generateToken.ts:11-12 | whitespace-padded digits are read as their value |
| GenerateToken.SecondsRoundTrip | backend/src/utils/generateToken.ts:9-13 | round trip: any number of seconds, written in decimal with leading zeros and padding, parses back to itself |
| GenerateToken.PaddedZerosValue | backend/src/utils/generateToken.ts:12 | leading zeros keep a digit string's value |
| GenerateToken.SpanRoundTrip | backend/src/utils/generateToken.ts:12 | a padded timespan such as "7d" parses to exactly that text |
| GenerateToken.BlankIsNotFallback | backend/src/utils/generateToken.ts:10-12 | a whitespace-only value is truthy and gives the empty timespan, not the fallback |
| GenerateToken.GenerateAccessToken | backend/src/utils/generateToken.ts:15-24 | fails exactly when the access secret is falsy; otherwise signs `{ id }` with the parsed expiry, 900 seconds by default |
| GenerateToken.GenerateRefreshToken | backend/src/utils/generateToken.ts:26-34 | fails exactly when the refresh secret is falsy; otherwise signs `{ id }` with the parsed expiry, "7d" by default |
| AuthMiddleware.HeaderTokenByPosition | backend/src/middleware/authMiddleware.ts:5 | the split-based token equals the text between the first and second space |
| AuthMiddleware.Protect | backend/src/middleware/authMiddleware.ts:4-17 | 401 "token missing" exactly when there is no token; 401 "Invalid token" exactly when the verifier rejects it; otherwise the request continues with the verified id |
| AuthMiddleware.BearerTokenIsVerified | backend/src/middleware/authMiddleware.ts:5-13 | `Bearer <token>` hands exactly `<token>` to the verifier |
| AuthMiddleware.SchemeIsIgnored | backend/src/middleware/authMiddleware.ts:5 | any scheme word before the space is accepted |
| AuthMiddleware.NoSpaceNoToken | backend/src/middleware/authMiddleware.ts:5-8 | a header without a space, or no header at all, is refused as "token missing" |
| UserController.Basename | backend/src/controllers/userController.ts:17 | the last segment: the longest slash-free suffix once trailing slashes are dropped |
| UserController.ExtName | backend/src/controllers/userController.ts:17 | `path.extname` is "" or the base name from its last dot, where that dot is not the first character |
| UserController.ExtNameEmptyCases | backend/src/controllers/userController.ts:17 | the extension is empty exactly for ".." or a base name whose only dot, if any, leads |
| UserController.ExtNameOfStemAndExt | backend/src/controllers/userController.ts:28 | `stem.ext` has extension `.ext` |
| UserController.DotFileHasNoExtension | backend/src/controllers/userController.ts:28-29 | a dot-file such as ".png" has no extension, so it is rejected |
| UserController.StoredName | backend/src/controllers/userController.ts:14-29 | the owner (id or "anon"), a dash and the clock in decimal digits, then the extension; for an accepted file under a slash-free id, reading the extension back gives the lower-cased original one |
| UserController.UploadAvatar | backend/src/controllers/userController.ts:23-53 | a missing or filtered-out file gives 400; an oversized file is refused; 200 exactly when the file is accepted, fits, the id is a document id, the store works and the user exists, answering `/avatars/<stored name>`; an id that is not a document id or a failing update gives 500; an unknown user gives 404 |
| UserController.DefaultAvatarPathInjective | backend/src/controllers/userController.ts:65 | different choices map to different static paths |
| UserController.ChooseDefaultAvatar | backend/src/controllers/userController.ts:56-77 | a choice not on the list gives 400; 200 exactly for a listed choice, a document id, a working store and an existing user; an id that is not a document id or a failing update gives 500; an unknown user gives 404 |
| UserController.MeIsNotAUserId | backend/src/controllers/userController.ts:56-76 | `PATCH /api/users/me/avatar/default` answers 500: "me" is not a document id |
| UserController.AcceptedIgnoresCase | backend/src/controllers/userController.ts:26-30 | a name is accepted exactly when its lower-cased extension is whitelisted |
| ConnectionQuality.NetworkGrade | frontend/src/hooks/useConnectionQuality.ts:165-174 | each grade holds exactly when its loss, rtt and jitter thresholds hold and no better grade's do |
| ConnectionQuality.VideoGrade | frontend/src/hooks/useConnectionQuality.ts:177-196 | each grade holds exactly when its pixel and frame-rate thresholds hold and no better grade's do |
| ConnectionQuality.CalculateQuality | frontend/src/hooks/useConnectionQuality.ts:159-199 | network metrics decide when any is present (absent ones count as 0), else video; "unknown" exactly when neither applies |
| ConnectionQuality.NetworkMetricsOverrideVideo | frontend/src/hooks/useConnectionQuality.ts:160-177 | once a network metric is present, video metrics are ignored |
| ConnectionQuality.NetworkGradeMonotone | frontend/src/hooks/useConnectionQuality.ts:165-174 | lower loss, rtt and jitter never give a worse grade |
| ConnectionQuality.VideoGradeMonotone | frontend/src/hooks/useConnectionQuality.ts:183-195 | more pixels and frames never give a worse grade |
| ConnectionQuality.LowerMetricNeverWorsens | frontend/src/hooks/useConnectionQuality.ts:160-175 | lowering the network metrics of a graded sample never worsens its grade |
| ConnectionQuality.ResetOnInputs | frontend/src/hooks/useConnectionQuality.ts:32-36 | with neither stream nor connection, the stats reset to "unknown"; otherwise they are kept |
| QualityIndicator.QualityConfig | frontend/src/components/ConnectionQualityIndicator.tsx:24-72 | four bars, lit ones first: 4, 3, 2, 1 lit for the four grades, and 0 lit with the off icon for any other value |
| QualityIndicator.BarsFollowRank | frontend/src/components/ConnectionQualityIndicator.tsx:24-72 | the number of lit bars equals the grade's rank |
| QualityIndicator.BarsMonotone | frontend/src/components/ConnectionQualityIndicator.tsx:24-72 | a better grade lights at least as many bars |
| QualityIndicator.SignalView | frontend/src/components/ConnectionQualityIndicator.tsx:161-179 | the off icon alone exactly for "unknown"; otherwise four bars, lit ones first |
| QualityIndicator.SignalFollowsGrade | frontend/src/components/ConnectionQualityIndicator.tsx:24-72 | each grade but "unknown" shows bars lit up to its rank; "unknown" shows the off icon |
| QualityIndicator.UnrecognisedGradeShowsDarkBars | frontend/src/components/ConnectionQualityIndicator.tsx:161-179 | a value outside the five grade names shows four dark bars, not the icon |
| QualityIndicator.BarHeightsIncrease | frontend/src/components/ConnectionQualityIndicator.tsx:76 | the four bar heights strictly increase |
| QualityIndicator.FormatMetric | frontend/src/components/ConnectionQualityIndicator.tsx:104-108 | "N/A" exactly for a missing value; two decimals below 1, rounded otherwise |
| QualityIndicator.Tooltip | frontend/src/components/ConnectionQualityIndicator.tsx:110-152 | no tooltip without stats; otherwise one row per metric present |
| QualityIndicator.TooltipNeverShowsNotAvailable | frontend/src/components/ConnectionQualityIndicator.tsx:110-152 | every row is guarded by its metric's presence, so "N/A" never appears |
| QualityIndicator.LatencyRowFirst | frontend/src/components/ConnectionQualityIndicator.tsx:113-118 | with a round-trip time, the first row is the latency in ms |
| QualityIndicator.OnQuality | frontend/src/components/ConnectionQualityIndicator.tsx:78-102 | a toast fires exactly when the grade differs from the last one seen, and the new grade is remembered |
| QualityIndicator.RepeatedGradeToastsOnce | frontend/src/components/ConnectionQualityIndicator.tsx:80-81 | the same grade twice in a row toasts at most once |
| ChatOverlay.PropOr | frontend/src/components/ChatOverlay.tsx:11-14 | a default applies only to an undefined prop |
| ChatOverlay.Mount | frontend/src/components/ChatOverlay.tsx:15-24 | the first render is closed and empty, and joins the (defaulted) room |
| ChatOverlay.Handle | frontend/src/components/ChatOverlay.tsx:25-57 | an incoming message is appended and counted unread only while closed; history replaces the list; opening clears unread and re-joins; a blank input sends nothing; a non-blank one is sent and cleared |
| ChatOverlay.HandleKeepsConsistent | frontend/src/components/ChatOverlay.tsx:25-49 | every event keeps "open implies nothing unread" |
| ChatOverlay.RunKeepsConsistent | frontend/src/components/ChatOverlay.tsx:25-49 | any event sequence keeps "open implies nothing unread" |
| ChatOverlay.DeliveriesCountUnread | frontend/src/components/ChatOverlay.tsx:25-30 | n deliveries while closed add n to unread and append the messages in order; while open, unread is unchanged |
| ChatOverlay.Badge | frontend/src/components/ChatOverlay.tsx:68-72 | no badge at 0, the single digit up to 9, "9+" above |
| OAuthSuccess.Get | frontend/src/pages/OAuthSuccess.tsx:13 | `get(key)` returns the value of a pair with the key and no earlier pair has it; nothing exactly when no pair has that key |
| OAuthSuccess.SingleParam | frontend/src/pages/OAuthSuccess.tsx:12-13 | `?key=value` yields the decoded value for the key |
| OAuthSuccess.PickToken | frontend/src/pages/OAuthSuccess.tsx:13 | the first truthy of `token`, `accessToken`, `authToken` |
| OAuthSuccess.Fragment | frontend/src/pages/OAuthSuccess.tsx:16-17 | exactly one leading `#` is removed |
| OAuthSuccess.ExtractToken | frontend/src/pages/OAuthSuccess.tsx:10-25 | a non-empty token from the query string, else from the fragment, else none |
| OAuthSuccess.HashMarkIsOptional | frontend/src/pages/OAuthSuccess.tsx:16-18 | a leading `#` makes no difference to the token found |
| OAuthSuccess.RefreshToken | frontend/src/pages/OAuthSuccess.tsx:65-66 | `accessToken`, else `token`, else none; a result is never empty |
| OAuthSuccess.Finalize | frontend/src/pages/OAuthSuccess.tsx:27-88 | a URL token is stored and the refresh is not used; otherwise each refresh outcome gives its message and redirect; the page goes home exactly when some token was obtained |
| OAuthSuccess.UrlTokenSkipsRefresh | frontend/src/pages/OAuthSuccess.tsx:30-43 | with a URL token, the refresh answer is irrelevant |
| FormValidation.IsEmailMatchesPattern | frontend/src/pages/Signup.tsx:70 | the scan accepts exactly the strings of the form local@domain.tld that the case-insensitive pattern describes |
| FormValidation.EmailHasOneAtNoSpace | frontend/src/pages/Signin.tsx:110 | an accepted email has exactly one `@` and no whitespace |
| FormValidation.EmailError | frontend/src/pages/Signin.tsx:107-113 | "Email is required" for "", "Invalid email address" exactly for non-matching input, no error otherwise |
| FormValidation.PasswordError | frontend/src/pages/Signin.tsx:122-128 | no error exactly at 6 or more characters; "required" for "" and "at least 6" for 1 to 5 characters |
| SignForms.ConfirmError | frontend/src/pages/Signup.tsx:97-101 | no error exactly when the confirmation is non-empty and equals the password |
| SignForms.SubmitSignUp | frontend/src/pages/Signup.tsx:29-47 | registration is attempted exactly when all three fields pass; success toasts and resets; failure toasts the error or the fallback and keeps the form |
| SignForms.CeilMinutes | frontend/src/pages/Signin.tsx:60 | the fewest whole minutes covering the wait: 60(m-1) < s <= 60m |
| SignForms.RetryAfterAsWritten | frontend/src/pages/Signin.tsx:59 | the reply's wait when truthy; 15 when it is missing or 0 |
| SignForms.RetryAfter | frontend/src/pages/Signin.tsx:59 | the reply's wait when truthy; the limiter's 900-second window when it is missing or 0 |
| SignForms.TokenOf | frontend/src/pages/Signin.tsx:49 | `accessToken` when truthy, else `token` when truthy, else none; a stored token is never empty |
| SignForms.SubmitSignIn | frontend/src/pages/Signin.tsx:35-77 | the request is made exactly when both fields pass; success toasts, stores the token if any, clears the form and goes home; a token the storage refuses adds the generic failure toast and the page stays; 429 shows the wait in minutes as written; other failures show the server message or the fallback; failures store nothing |
| SignForms.PluralIffOverAMinute | frontend/src/pages/Signin.tsx:63 | "minutes" is plural exactly when the wait exceeds 60 seconds |
| SignForms.DefaultWaitIsOneMinute | frontend/src/pages/Signin.tsx:59-63 | as written, the page answers a 429 naming no wait with "1 minute", less than the limiter's window |
| SignForms.DefaultWaitIsTheWindow | backend/src/middleware/rateLimiter.ts:6-18 | with the fallback in seconds, a 429 naming no wait says "15 minutes" |
| SignForms.SameFieldRules | frontend/src/pages/Signin.tsx:107-128 | sign-in and sign-up report the same email and password errors |

## Left out

- I/O and runtime:
  - Transport, HTTP routing and socket.io connection management.
  - Logging, timers and rendering.
  - The `asyncHandler` wrapper.
  - The `/health` routes and process start-up and shutdown.
- Concurrency:
  - Each handler is one atomic step.
  - The lost update between two `leave-room` handlers of one room (read, filter and save at `backend/src/server.ts:105-108`) is not represented.
- Metric collection (`updateStats` in `frontend/src/hooks/useConnectionQuality.ts`) is left out because it reads WebRTC statistics. Only its grading and reset are modelled.
- Numbers:
  - No IEEE `number` semantics: metrics are `real`, and times, statuses and `retryAfter` are integers.
  - No `NaN` and no fractional `retryAfter`.
- QualityIndicator.FormatMetric: records which rendering applies, but not the digits of `toFixed(2)` or `Math.round`.
- Strings:
  - Dafny characters are Unicode scalar values, while JavaScript `length` counts UTF-16 code units. Password length therefore differs for characters outside the BMP.
  - `toLowerCase` is modelled on ASCII only, which is enough for the extension whitelist.
- OAuthSuccess.Get: percent-decoding and `+` handling are an opaque `decode` parameter. `URLSearchParams` never throws, so the `catch` in `extractTokenFromUrl` is unreachable and has no counterpart.
- Signing and verification:
  - `jwt.sign` is replaced by the request it would sign.
  - `jwt.verify` is a parameter.
  - Passport's strategy plumbing, `done` calls and OAuth redirects are not modelled.
- UserController.ExtName: POSIX paths only; Windows separators are not modelled.
- UserController.UploadAvatar: the `avatar` and `avatarSource` update is not persisted, because the user schema declares neither field. The reply carries the user id rather than the document.
- UserController.UploadAvatar: the file lands on disk before the user lookup, and that write is not modelled.
- Mongo ordering:
  - ChatHistory.SortByTime keeps equal timestamps in log order; Mongo leaves ties unordered.
  - The populated `username email` projection of members is shown as member ids.
- Wiring inconsistencies, recorded but not modelled:
  - `backend/src/routes/roomRoutes.ts` names the parameter `:roomIdOrName` while the controller reads `roomId`, and imports an `endRoom` the controller does not export.
  - `protect` verifies with `JWT_SECRET` while tokens are signed with `JWT_ACCESS_SECRET`.
- Store.IsObjectId: a cast id is exactly 24 hexadecimal digits. Older versions of the cast also took any 12-character string, and that form is not modelled.
- RoomController.JoinRoom: the cast of the caller's id (`roomController.ts:48`) is not modelled as able to throw, because `protect` only passes ids the store generated.
- QualityIndicator.Tooltip: the heading, the layout and the hover state are not modelled; only which rows appear and what they show.
- `mockRegister` is not part of this model. Its outcome is the `Registration` parameter of SignForms.SubmitSignUp.

## Findings

| source | as written | input that shows it | evidently intended | confidence | as-written member | corrected member |
|---|---|---|---|---|---|---|
| frontend/src/pages/Signin.tsx:59-60 | `retryAfter \|\| 15` is then divided by 60, so the fallback is 15 seconds | a 429 reply with no `retryAfter` shows "Please try again after 1 minute." | the rate limiter (`backend/src/middleware/rateLimiter.ts:6-18`) sends seconds, locks for 15 minutes and uses 900 as its own fallback, so the page's fallback means 15 minutes | medium, not executed | SignForms.RetryAfterAsWritten, SignForms.SubmitSignIn, SignForms.DefaultWaitIsOneMinute | SignForms.RetryAfter, SignForms.DefaultWaitIsTheWindow |

=== FILE: auth_middleware.dfy ===
/** The `protect` middleware (`backend/src/middleware/authMiddleware.ts`):
    take the second space-separated field of the `Authorization` header as
    the token, verify it, and attach the decoded id to the request. Token
    verification (`jwt.verify` with the configured secret) is a parameter. */
module AuthMiddleware {
  import opened Wrappers
  import opened Strings

  /** What `jwt.verify` does with a token: returns a payload, whose `id` may
      be absent, or throws. */
  datatype Verified = Valid(id: Option<string>) | Rejected

  /** Either the request continues with `userId` set, or a 401 is sent. */
  datatype Guard = Next(userId: Option<string>) | Deny(status: nat, message: string)

  const TokenMissing := "Not authorized, token missing"
  const InvalidToken := "Invalid token"

  /** `authorization?.split(" ")[1]`. */
  function HeaderToken(header: Option<string>): Option<string>
  {
    if header.None? then None
    else
      var fields := Split(header.value, ' ');
      if |fields| > 1 then Some(fields[1]) else None
  }

  /** The same token read by position: the text after the first space, up to
      the next space or the end. */
  function TokenAfterFirstSpace(h: string): Option<string>
  {
    var i := IndexOf(h, ' ');
    if i == |h| then None
    else
      var rest := h[i + 1..];
      Some(rest[..IndexOf(rest, ' ')])
  }

  /** The split-based and the position-based readings agree on every header. */
  lemma {:induction false} HeaderTokenByPosition(h: string)
    ensures HeaderToken(Some(h)) == TokenAfterFirstSpace(h)
  {
    SplitFirstField(h, ' ');
    var i := IndexOf(h, ' ');
    if i < |h| {
      var rest := h[i + 1..];
      SplitFirstField(rest, ' ');
      assert Split(h, ' ')[1] == Split(rest, ' ')[0];
    }
  }

  /** `protect`. */
  function Protect(header: Option<string>, verify: string -> Verified): (r: Guard)
    ensures !Truthy(HeaderToken(header)) <==> r == Deny(401, TokenMissing)
    ensures Truthy(HeaderToken(header)) && verify(HeaderToken(header).value).Rejected? <==> r == Deny(401, InvalidToken)
    ensures r.Next? <==> Truthy(HeaderToken(header)) && verify(HeaderToken(header).value).Valid?
    ensures r.Next? ==> r.userId == verify(HeaderToken(header).value).id
    ensures r.Deny? ==> r.status == 401
  {
    var token := HeaderToken(header);
    if !Truthy(token) then Deny(401, TokenMissing)
    else
      match verify(token.value)
      case Valid(id) => Next(id)
      case Rejected => Deny(401, InvalidToken)
  }

  /** `Bearer <token>` hands exactly `<token>` to the verifier. */
  lemma BearerTokenIsVerified(token: string, verify: string -> Verified)
    requires token != "" && ' ' !in token
    ensures HeaderToken(Some("Bearer " + token)) == Some(token)
    ensures Protect(Some("Bearer " + token), verify) ==
              (if verify(token).Valid? then Next(verify(token).id) else Deny(401, InvalidToken))
  {
    assert "Bearer " + token == "Bearer" + " " + token;
    SchemeIsIgnored("Bearer", token, verify);
  }

  /** The scheme word is not checked: any word before the space will do. */
  lemma SchemeIsIgnored(scheme: string, token: string, verify: string -> Verified)
    requires ' ' !in scheme && ' ' !in token
    ensures HeaderToken(Some(scheme + " " + token)) == Some(token)
  {
    var h := scheme + " " + token;
    HeaderTokenByPosition(h);
    IndexOfAfterPrefix(scheme, ' ', token);
    assert h[|scheme| + 1..] == token;
    assert token[..|token|] == token;
    assert TokenAfterFirstSpace(h) == Some(token);
  }

  /** A header with no space, or a missing header, is refused before any
      verification. */
  lemma NoSpaceNoToken(h: string, verify: string -> Verified)
    requires ' ' !in h
    ensures Protect(Some(h), verify) == Deny(401, TokenMissing)
    ensures Protect(None, verify) == Deny(401, TokenMissing)
  {
    HeaderTokenByPosition(h);
  }
}

=== FILE: chat_history.dfy ===
/** The chat log of `chatMessageModel.ts` and the history query the socket
    server runs on join: the room's messages sorted newest-first by
    timestamp, the first 50 taken, then reversed to oldest-first. */
module ChatHistory {

  /** A stored chat message; `timestamp` is milliseconds since the epoch. */
  datatype ChatMessage = ChatMessage(roomId: string, user: string, text: string, timestamp: int)

  /** The cap on the history sent to a joining socket. */
  const HistoryLimit: nat := 50

  /** The messages of one room, in log order (`find({ roomId })`). */
  function InRoom(log: seq<ChatMessage>, room: string): (r: seq<ChatMessage>)
    ensures forall m :: m in r <==> m in log && m.roomId == room
    ensures |r| <= |log|
    // each message of the room is kept as often as it occurs, no other one
    ensures forall m :: multiset(r)[m] == if m.roomId == room then multiset(log)[m] else 0
    decreases |log|
  {
    if log == [] then []
    else
      var init := log[..|log| - 1];
      var rest := InRoom(init, room);
      var last := log[|log| - 1];
      assert log == init + [last];
      assert multiset(log) == multiset(init) + multiset{last};
      if last.roomId == room then
        assert multiset(rest + [last]) == multiset(rest) + multiset{last};
        rest + [last]
      else rest
  }

  /** Appending a message of another room does not change a room's view. */
  lemma InRoomAppend(log: seq<ChatMessage>, m: ChatMessage, room: string)
    ensures InRoom(log + [m], room) == if m.roomId == room then InRoom(log, room) + [m] else InRoom(log, room)
  {
    assert (log + [m])[..|log|] == log;
  }

  predicate SortedByTime(s: seq<ChatMessage>)
  {
    forall i, j :: 0 <= i < j < |s| ==> s[i].timestamp <= s[j].timestamp
  }

  /** Inserts `m` before the first message that is not older than it. */
  function Insert(m: ChatMessage, s: seq<ChatMessage>): (r: seq<ChatMessage>)
    requires SortedByTime(s)
    ensures SortedByTime(r)
    ensures multiset(r) == multiset(s) + multiset{m}
    ensures |r| == |s| + 1
    ensures r[0] == m || (s != [] && r[0] == s[0])
    decreases |s|
  {
    if s == [] || m.timestamp <= s[0].timestamp then [m] + s
    else
      var tail := Insert(m, s[1..]);
      assert s == [s[0]] + s[1..];
      assert s[0].timestamp <= tail[0].timestamp by {
        assert |s| > 1 ==> s[0].timestamp <= s[1].timestamp;
      }
      [s[0]] + tail
  }

  /** Stable sort by timestamp, oldest first (ties keep their log order). */
  function SortByTime(s: seq<ChatMessage>): (r: seq<ChatMessage>)
    ensures SortedByTime(r)
    ensures multiset(r) == multiset(s)
    ensures |r| == |s|
    decreases |s|
  {
    if s == [] then []
    else
      assert s == [s[0]] + s[1..];
      Insert(s[0], SortByTime(s[1..]))
  }

  /** A log already in timestamp order is left as it is by the sort. */
  lemma {:induction false} SortOfSortedIsIdentity(s: seq<ChatMessage>)
    requires SortedByTime(s)
    ensures SortByTime(s) == s
    decreases |s|
  {
    if s != [] {
      SortOfSortedIsIdentity(s[1..]);
      assert s == [s[0]] + s[1..];
    }
  }

  /** The last `n` entries of `s` (all of them when there are fewer). */
  function LastN(s: seq<ChatMessage>, n: nat): (r: seq<ChatMessage>)
    ensures |r| == if |s| < n then |s| else n
    ensures s == s[..|s| - |r|] + r
  {
    if |s| <= n then s else s[|s| - n..]
  }

  /** The `chat-history` payload for `room`: at most 50 of the room's
      messages, oldest first. Which ones they are is stated by
      `RecentHistoryIsWindow`. */
  function RecentHistory(log: seq<ChatMessage>, room: string): (r: seq<ChatMessage>)
    ensures |r| <= HistoryLimit
    ensures |r| == if |InRoom(log, room)| < HistoryLimit then |InRoom(log, room)| else HistoryLimit
    ensures forall m :: m in r ==> m in log && m.roomId == room
    ensures SortedByTime(r)
  {
    var all := InRoom(log, room);
    var sorted := SortByTime(all);
    var r := LastN(sorted, HistoryLimit);
    SuffixIsMostRecent(sorted, HistoryLimit);
    forall m | m in r ensures m in log && m.roomId == room {
      assert m in multiset(r);
      assert m in multiset(all);
    }
    r
  }

  /** The history is drawn from the room's messages, and none of the room's
      messages left out is newer than one kept: it is the most recent
      window. */
  lemma RecentHistoryIsWindow(log: seq<ChatMessage>, room: string)
    ensures multiset(RecentHistory(log, room)) <= multiset(InRoom(log, room))
    ensures forall m, k :: m in multiset(InRoom(log, room)) - multiset(RecentHistory(log, room)) &&
                           0 <= k < |RecentHistory(log, room)|
              ==> m.timestamp <= RecentHistory(log, room)[k].timestamp
  {
    var sorted := SortByTime(InRoom(log, room));
    SuffixIsMostRecent(sorted, HistoryLimit);
  }

  /** The last `n` entries of a sorted sequence are sorted and no entry
      left out is newer than any entry kept. */
  lemma SuffixIsMostRecent(sorted: seq<ChatMessage>, n: nat)
    requires SortedByTime(sorted)
    ensures SortedByTime(LastN(sorted, n))
    ensures multiset(LastN(sorted, n)) <= multiset(sorted)
    ensures forall m, k :: m in multiset(sorted) - multiset(LastN(sorted, n)) && 0 <= k < |LastN(sorted, n)|
              ==> m.timestamp <= LastN(sorted, n)[k].timestamp
  {
    var r := LastN(sorted, n);
    var dropped := sorted[..|sorted| - |r|];
    assert sorted == dropped + r;
    assert multiset(sorted) - multiset(r) == multiset(dropped) by {
      assert multiset(sorted) == multiset(dropped) + multiset(r);
    }
    SortedHalves(dropped, r);
    forall m, k | m in multiset(sorted) - multiset(r) && 0 <= k < |r|
      ensures m.timestamp <= r[k].timestamp
    {
      assert m in dropped;
    }
  }

  /** In a sorted concatenation, everything in the first part is no newer
      than anything in the second. */
  lemma SortedHalves(a: seq<ChatMessage>, b: seq<ChatMessage>)
    requires SortedByTime(a + b)
    ensures SortedByTime(b)
    ensures forall m, k :: m in a && 0 <= k < |b| ==> m.timestamp <= b[k].timestamp
  {
    forall m, k | m in a && 0 <= k < |b| ensures m.timestamp <= b[k].timestamp {
      var i :| 0 <= i < |a| && a[i] == m;
      assert (a + b)[i] == m && (a + b)[|a| + k] == b[k];
    }
    forall i, j | 0 <= i < j < |b| ensures b[i].timestamp <= b[j].timestamp {
      assert (a + b)[|a| + i] == b[i] && (a + b)[|a| + j] == b[j];
    }
  }

  /** A message appended to room A never shows up in the history of another
      room B: B's history is exactly what it was before. */
  lemma HistoryIsolation(log: seq<ChatMessage>, m: ChatMessage, room: string)
    requires m.roomId != room
    ensures RecentHistory(log + [m], room) == RecentHistory(log, room)
    ensures m !in RecentHistory(log + [m], room)
  {
    InRoomAppend(log, m, room);
  }

  /** With a clock that never runs backwards, the newest message of a room
      is the last entry of the history a later joiner receives, and the
      history is the room's log suffix in insertion order. */
  lemma LatestMessageEndsHistory(log: seq<ChatMessage>, m: ChatMessage)
    requires SortedByTime(log)
    requires forall k :: 0 <= k < |log| ==> log[k].timestamp <= m.timestamp
    ensures RecentHistory(log + [m], m.roomId) == LastN(InRoom(log, m.roomId) + [m], HistoryLimit)
    ensures RecentHistory(log + [m], m.roomId)[|RecentHistory(log + [m], m.roomId)| - 1] == m
  {
    InRoomAppend(log, m, m.roomId);
    var before := InRoom(log, m.roomId);
    var all := before + [m];
    SubsequenceSorted(log, m.roomId);
    forall k | 0 <= k < |before| ensures before[k].timestamp <= m.timestamp {
      assert before[k] in log;
    }
    AppendNewestKeepsSorted(before, m);
    SortOfSortedIsIdentity(all);
    var h := LastN(all, HistoryLimit);
    assert all == all[..|all| - |h|] + h;
    assert h[|h| - 1] == all[|all| - 1];
  }

  /** Appending a message no older than any other keeps timestamp order. */
  lemma AppendNewestKeepsSorted(s: seq<ChatMessage>, m: ChatMessage)
    requires SortedByTime(s)
    requires forall k :: 0 <= k < |s| ==> s[k].timestamp <= m.timestamp
    ensures SortedByTime(s + [m])
  {
  }

  /** Filtering keeps timestamp order. */
  lemma {:induction false} SubsequenceSorted(log: seq<ChatMessage>, room: string)
    requires SortedByTime(log)
    ensures SortedByTime(InRoom(log, room))
    decreases |log|
  {
    if log != [] {
      var init := log[..|log| - 1];
      SubsequenceSorted(init, room);
      var rest := InRoom(init, room);
      forall k | 0 <= k < |rest| ensures rest[k].timestamp <= log[|log| - 1].timestamp {
        assert rest[k] in init;
      }
    }
  }
}

=== FILE: chat_overlay.dfy ===
/** The in-call chat widget (`frontend/src/components/ChatOverlay.tsx`) as a
    reducer: socket events and user actions change the open flag, the message
    list, the input box and the unread counter, and may send events to the
    server. Rendering and scrolling are left out. */
module ChatOverlay {
  import opened Wrappers
  import opened Strings

  /** A message as the server delivers it; `time` may be absent. */
  datatype ChatLine = ChatLine(user: string, text: string, time: Option<int>)

  datatype Overlay = Overlay(open: bool, messages: seq<ChatLine>, input: string, unread: nat)

  /** What the widget sends to the server. */
  datatype Outgoing = JoinRoom(roomId: string, userName: string) | SendChat(roomId: string, user: string, text: string)

  datatype Input =
    | Incoming(line: ChatLine)      // "chat-message"
    | History(lines: seq<ChatLine>) // "chat-history"
    | SetOpen(open: bool)           // the open button or the close button
    | Typed(text: string)           // the input box changed
    | Submit                        // the form was submitted

  datatype Step = Step(overlay: Overlay, out: seq<Outgoing>)

  const DefaultRoom := "global"
  const DefaultUser := "Anonymous"

  /** A destructuring default: used only when the prop is undefined. */
  function PropOr(prop: Option<string>, default: string): (r: string)
    ensures prop.None? ==> r == default
    ensures prop.Some? ==> r == prop.value
  {
    if prop.None? then default else prop.value
  }

  /** The first render: closed, empty, and joining the room. */
  function Mount(roomId: Option<string>, userName: Option<string>): (s: Step)
    ensures s.overlay == Overlay(false, [], "", 0)
    ensures s.out == [JoinRoom(PropOr(roomId, DefaultRoom), PropOr(userName, DefaultUser))]
  {
    Step(Overlay(false, [], "", 0), [JoinRoom(PropOr(roomId, DefaultRoom), PropOr(userName, DefaultUser))])
  }

  /** One event. Changing `open` re-runs the socket effect, which joins the
      room again; opening also clears the unread count. */
  function Handle(o: Overlay, roomId: string, userName: string, e: Input): (s: Step)
    ensures e.Incoming? ==> s.overlay.messages == o.messages + [e.line] && s.out == []
    ensures e.Incoming? ==> s.overlay.unread == (if o.open then o.unread else o.unread + 1)
    ensures e.History? ==> s.overlay == o.(messages := e.lines) && s.out == []
    ensures e.SetOpen? && e.open != o.open ==>
              s.overlay.open == e.open && s.out == [JoinRoom(roomId, userName)] && s.overlay.messages == o.messages
    ensures e.SetOpen? && e.open && !o.open ==> s.overlay.unread == 0
    ensures e.SetOpen? && e.open == o.open ==> s == Step(o, [])
    ensures e.Typed? ==> s.overlay == o.(input := e.text) && s.out == []
    ensures e.Submit? && AllSpace(o.input) ==> s == Step(o, [])
    ensures e.Submit? && !AllSpace(o.input) ==>
              s.overlay == o.(input := "") && s.out == [SendChat(roomId, userName, o.input)]
    ensures s.overlay.open == (if e.SetOpen? then e.open else o.open)
  {
    match e
    case Incoming(line) =>
      Step(o.(messages := o.messages + [line], unread := if o.open then o.unread else o.unread + 1), [])
    case History(lines) => Step(o.(messages := lines), [])
    case SetOpen(b) =>
      if b == o.open then Step(o, [])
      else Step(o.(open := b, unread := if b then 0 else o.unread), [JoinRoom(roomId, userName)])
    case Typed(text) => Step(o.(input := text), [])
    case Submit =>
      TrimEmptyIffAllSpace(o.input);
      if Trim(o.input) == "" then Step(o, [])
      else Step(o.(input := ""), [SendChat(roomId, userName, o.input)])
  }

  /** Applies a sequence of events, collecting what is sent. */
  function Run(o: Overlay, roomId: string, userName: string, es: seq<Input>): (s: Step)
    decreases |es|
  {
    if es == [] then Step(o, [])
    else
      var first := Handle(o, roomId, userName, es[0]);
      var rest := Run(first.overlay, roomId, userName, es[1..]);
      Step(rest.overlay, first.out + rest.out)
  }

  /** While the overlay is open, nothing is unread. */
  ghost predicate Consistent(o: Overlay)
  {
    o.open ==> o.unread == 0
  }

  lemma HandleKeepsConsistent(o: Overlay, roomId: string, userName: string, e: Input)
    requires Consistent(o)
    ensures Consistent(Handle(o, roomId, userName, e).overlay)
  {
  }

  lemma {:induction false} RunKeepsConsistent(o: Overlay, roomId: string, userName: string, es: seq<Input>)
    requires Consistent(o)
    ensures Consistent(Run(o, roomId, userName, es).overlay)
    decreases |es|
  {
    if es != [] {
      HandleKeepsConsistent(o, roomId, userName, es[0]);
      RunKeepsConsistent(Handle(o, roomId, userName, es[0]).overlay, roomId, userName, es[1..]);
    }
  }

  /** Incoming messages only. */
  function Deliveries(lines: seq<ChatLine>): (es: seq<Input>)
    ensures |es| == |lines|
    ensures forall k :: 0 <= k < |es| ==> es[k] == Incoming(lines[k])
  {
    seq(|lines|, k requires 0 <= k < |lines| => Incoming(lines[k]))
  }

  /** While closed, each delivered message adds one to the unread count and
      is appended in order; while open the count stays put. */
  lemma {:induction false} DeliveriesCountUnread(o: Overlay, roomId: string, userName: string, lines: seq<ChatLine>)
    ensures var r := Run(o, roomId, userName, Deliveries(lines));
      && r.overlay.messages == o.messages + lines
      && r.overlay.unread == (if o.open then o.unread else o.unread + |lines|)
      && r.overlay.open == o.open
      && r.out == []
    decreases |lines|
  {
    if lines != [] {
      var es := Deliveries(lines);
      var first := Handle(o, roomId, userName, es[0]);
      var o1 := first.overlay;
      assert es[1..] == Deliveries(lines[1..]);
      DeliveriesCountUnread(o1, roomId, userName, lines[1..]);
      var rest := Run(o1, roomId, userName, es[1..]);
      assert Run(o, roomId, userName, es) == Step(rest.overlay, first.out + rest.out);
      assert o1.messages + lines[1..] == o.messages + lines;
    }
  }

  /** The badge on the closed button: nothing at 0, the count up to 9, "9+"
      above. */
  function Badge(unread: nat): (b: Option<string>)
    ensures b.None? <==> unread == 0
    ensures unread > 9 ==> b == Some("9+")
    ensures 0 < unread <= 9 ==> b.Some? && IsDigitString(b.value) && |b.value| == 1 && DigitsValue(b.value) == unread
  {
    if unread == 0 then None
    else if unread > 9 then Some("9+")
    else Some(NatToString(unread))
  }
}

=== FILE: connection_quality.dfy ===
/** Call-quality grading (`frontend/src/hooks/useConnectionQuality.ts`):
    `calculateQuality` and the hook's reset when it has nothing to measure.
    Metrics are real numbers; gathering them from WebRTC statistics is not
    modelled. */
module ConnectionQuality {
  import opened Wrappers

  datatype Quality = Excellent | Good | Fair | Poor | Unknown

  datatype Resolution = Resolution(width: real, height: real)

  /** `ConnectionQualityStats`; every metric is optional. */
  datatype Stats = Stats(
    quality: Quality,
    videoResolution: Option<Resolution>,
    videoFrameRate: Option<real>,
    audioLevel: Option<real>,
    packetLoss: Option<real>,
    jitter: Option<real>,
    rtt: Option<real>,      // round-trip time in ms
    bandwidth: Option<real>) // kbps

  /** The order of the grades, best highest; "unknown" is below "poor". */
  function Rank(q: Quality): nat
  {
    match q
    case Excellent => 4
    case Good => 3
    case Fair => 2
    case Poor => 1
    case Unknown => 0
  }

  /** `x || 0` for an optional metric. */
  function OrZero(x: Option<real>): real
  {
    if x.Some? then x.value else 0.0
  }

  predicate HasNetworkMetrics(s: Stats)
  {
    s.packetLoss.Some? || s.rtt.Some? || s.jitter.Some?
  }

  /** The network thresholds: loss in percent, rtt and jitter in ms. */
  function NetworkGrade(loss: real, rtt: real, jitter: real): (q: Quality)
    ensures q != Unknown
    ensures q == Excellent <==> loss < 1.0 && rtt < 100.0 && jitter < 20.0
    ensures q == Good <==> q != Excellent && loss < 3.0 && rtt < 200.0 && jitter < 50.0
    ensures q == Fair <==> Rank(q) < 3 && loss < 5.0 && rtt < 300.0 && jitter < 100.0
  {
    if loss < 1.0 && rtt < 100.0 && jitter < 20.0 then Excellent
    else if loss < 3.0 && rtt < 200.0 && jitter < 50.0 then Good
    else if loss < 5.0 && rtt < 300.0 && jitter < 100.0 then Fair
    else Poor
  }

  /** The local-video thresholds: 720p at 30 fps, 480p at 25, 360p at 20. */
  function VideoGrade(pixels: real, fps: real): (q: Quality)
    ensures q != Unknown
    ensures q == Excellent <==> pixels >= 1280.0 * 720.0 && fps >= 30.0
    ensures q == Good <==> q != Excellent && pixels >= 640.0 * 480.0 && fps >= 25.0
    ensures q == Fair <==> Rank(q) < 3 && pixels >= 640.0 * 360.0 && fps >= 20.0
  {
    if pixels >= 1280.0 * 720.0 && fps >= 30.0 then Excellent
    else if pixels >= 640.0 * 480.0 && fps >= 25.0 then Good
    else if pixels >= 640.0 * 360.0 && fps >= 20.0 then Fair
    else Poor
  }

  /** `calculateQuality`: network metrics, when any is present, decide alone
      (absent ones counting as 0); otherwise resolution and frame rate
      decide; otherwise the grade is unknown. */
  function CalculateQuality(s: Stats): (q: Quality)
    ensures HasNetworkMetrics(s) ==> q == NetworkGrade(OrZero(s.packetLoss), OrZero(s.rtt), OrZero(s.jitter))
    ensures !HasNetworkMetrics(s) && s.videoResolution.Some? && s.videoFrameRate.Some? ==>
              q == VideoGrade(s.videoResolution.value.width * s.videoResolution.value.height, s.videoFrameRate.value)
    ensures q == Unknown <==> !HasNetworkMetrics(s) && (s.videoResolution.None? || s.videoFrameRate.None?)
  {
    if HasNetworkMetrics(s) then NetworkGrade(OrZero(s.packetLoss), OrZero(s.rtt), OrZero(s.jitter))
    else if s.videoResolution.Some? && s.videoFrameRate.Some? then
      VideoGrade(s.videoResolution.value.width * s.videoResolution.value.height, s.videoFrameRate.value)
    else Unknown
  }

  /** Video metrics are ignored once any network metric is present. */
  lemma NetworkMetricsOverrideVideo(s: Stats, r: Option<Resolution>, fps: Option<real>)
    requires HasNetworkMetrics(s)
    ensures CalculateQuality(s.(videoResolution := r, videoFrameRate := fps)) == CalculateQuality(s)
  {
  }

  /** Lower loss, rtt and jitter never give a worse grade. */
  lemma NetworkGradeMonotone(l1: real, r1: real, j1: real, l2: real, r2: real, j2: real)
    requires l1 <= l2 && r1 <= r2 && j1 <= j2
    ensures Rank(NetworkGrade(l1, r1, j1)) >= Rank(NetworkGrade(l2, r2, j2))
  {
  }

  /** More pixels and more frames per second never give a worse grade. */
  lemma VideoGradeMonotone(p1: real, f1: real, p2: real, f2: real)
    requires p1 <= p2 && f1 <= f2
    ensures Rank(VideoGrade(p1, f1)) <= Rank(VideoGrade(p2, f2))
  {
  }

  /** Lowering any one network metric of a graded sample never worsens it. */
  lemma LowerMetricNeverWorsens(s: Stats, loss: real, rtt: real, jitter: real)
    requires HasNetworkMetrics(s)
    requires loss <= OrZero(s.packetLoss) && rtt <= OrZero(s.rtt) && jitter <= OrZero(s.jitter)
    ensures Rank(CalculateQuality(s.(packetLoss := Some(loss), rtt := Some(rtt), jitter := Some(jitter)))) >= Rank(CalculateQuality(s))
  {
    NetworkGradeMonotone(loss, rtt, jitter, OrZero(s.packetLoss), OrZero(s.rtt), OrZero(s.jitter));
  }

  /** The hook's state before any measurement: quality unknown, no metrics. */
  const Initial := Stats(Unknown, None, None, None, None, None, None, None)

  /** The hook's effect when its inputs change: with neither a local stream
      nor a peer connection the state resets to unknown; otherwise it is kept
      until the next measurement. */
  function ResetOnInputs(hasLocalStream: bool, hasPeerConnection: bool, current: Stats): (s: Stats)
    ensures !hasLocalStream && !hasPeerConnection ==> s == Initial && CalculateQuality(s) == Unknown
    ensures hasLocalStream || hasPeerConnection ==> s == current
  {
    if !hasLocalStream && !hasPeerConnection then Initial else current
  }
}

=== FILE: error_handler.dfy ===
/** The Express error middleware (`backend/src/middleware/errorHandler.ts`):
    `AppError`, `errorHandler` turning any thrown value into a JSON error
    response, and `notFoundHandler`. Logging is left out. */
module ErrorHandler {
  import opened Wrappers
  import opened Strings

  /** What `errorHandler` reads from the thrown value. */
  datatype ErrorValue = ErrorValue(
    isCastError: bool,            // instanceof mongoose.Error.CastError
    isValidationError: bool,      // instanceof mongoose.Error.ValidationError
    code: Option<int>,
    keyValueKeys: seq<string>,    // Object.keys(err.keyValue || {})
    fieldMessages: seq<string>,   // Object.values(err.errors).map(e => e.message)
    name: string,
    statusCode: Option<int>,
    message: string,
    stack: string)

  /** An operational error carrying its HTTP status. */
  datatype AppError = AppError(message: string, statusCode: int, isOperational: bool)

  /** The `error` object the handler narrows: a message and a status. */
  datatype Working = Working(message: string, statusCode: Option<int>)

  datatype ErrorBody = ErrorBody(success: bool, message: string, stack: Option<string>, error: Option<ErrorValue>)

  datatype Response = Response(status: int, body: ErrorBody)

  const DuplicateKeyCode := 11000
  const DefaultStatus := 500
  const DefaultMessage := "Internal Server Error"
  const CastMessage := "Resource not found"
  const InvalidToken := "Invalid token"
  const TokenExpired := "Token expired"

  /** `new AppError(message, statusCode?, isOperational?)`: the status
      defaults to 500 and the error is operational unless told otherwise. */
  function NewAppError(message: string, statusCode: Option<int>, isOperational: Option<bool>): (e: AppError)
    ensures e.message == message
    ensures statusCode.None? ==> e.statusCode == DefaultStatus
    ensures statusCode.Some? ==> e.statusCode == statusCode.value
    ensures isOperational.None? ==> e.isOperational
    ensures isOperational.Some? ==> e.isOperational == isOperational.value
  {
    AppError(message, statusCode.GetOr(DefaultStatus), isOperational.GetOr(true))
  }

  /** An `AppError` as the handler sees it when thrown: it keeps the name
      `Error`, and its status is an own property. */
  function Thrown(a: AppError, stack: string): ErrorValue
  {
    ErrorValue(false, false, None, [], [], "Error", Some(a.statusCode), a.message, stack)
  }

  /** `Object.keys(...)[0]` interpolated into a string. */
  function FirstKeyText(keys: seq<string>): string
  {
    if |keys| == 0 then "undefined" else keys[0]
  }

  predicate IsJwtName(name: string)
  {
    name == "JsonWebTokenError" || name == "TokenExpiredError"
  }

  /** The five overrides applied in source order, each replacing the
      previous one: so the last matching rule decides. */
  function Classify(err: ErrorValue): (w: Working)
    ensures err.name == "TokenExpiredError" ==> w == Working(TokenExpired, Some(401))
    ensures err.name == "JsonWebTokenError" ==> w == Working(InvalidToken, Some(401))
    ensures !IsJwtName(err.name) && err.isValidationError ==>
              w == Working(Join(err.fieldMessages, ", "), Some(400))
    ensures !IsJwtName(err.name) && !err.isValidationError && err.code == Some(DuplicateKeyCode) ==>
              w == Working(FirstKeyText(err.keyValueKeys) + " already exists", Some(400))
    ensures !IsJwtName(err.name) && !err.isValidationError && err.code != Some(DuplicateKeyCode) && err.isCastError ==>
              w == Working(CastMessage, Some(404))
    ensures !IsJwtName(err.name) && !err.isValidationError && err.code != Some(DuplicateKeyCode) && !err.isCastError ==>
              w == Working(err.message, err.statusCode)
  {
    var e0 := Working(err.message, err.statusCode);
    var e1 := if err.isCastError then Working(CastMessage, Some(404)) else e0;
    var e2 := if err.code == Some(DuplicateKeyCode) then Working(FirstKeyText(err.keyValueKeys) + " already exists", Some(400)) else e1;
    var e3 := if err.isValidationError then Working(Join(err.fieldMessages, ", "), Some(400)) else e2;
    var e4 := if err.name == "JsonWebTokenError" then Working(InvalidToken, Some(401)) else e3;
    if err.name == "TokenExpiredError" then Working(TokenExpired, Some(401)) else e4
  }

  /** `errorHandler`: a falsy status (absent or 0) becomes 500 and an empty
      message becomes "Internal Server Error"; development mode adds the
      stack and the raw error. */
  function HandleError(err: ErrorValue, development: bool): (r: Response)
    ensures r.status != 0 && r.body.message != "" && !r.body.success
    ensures var w := Classify(err);
      && (w.statusCode.Some? && w.statusCode.value != 0 ==> r.status == w.statusCode.value)
      && (w.statusCode.None? || w.statusCode == Some(0) ==> r.status == DefaultStatus)
      && (w.message != "" ==> r.body.message == w.message)
      && (w.message == "" ==> r.body.message == DefaultMessage)
    ensures development <==> r.body.stack.Some?
    ensures development ==> r.body.stack == Some(err.stack) && r.body.error == Some(err)
    ensures !development ==> r.body.error.None?
  {
    var w := Classify(err);
    var status := if w.statusCode.Some? && w.statusCode.value != 0 then w.statusCode.value else DefaultStatus;
    var message := if w.message != "" then w.message else DefaultMessage;
    Response(status, ErrorBody(false, message, if development then Some(err.stack) else None,
                               if development then Some(err) else None))
  }

  /** `notFoundHandler`: forwards a 404 naming the requested URL. */
  function NotFoundHandler(originalUrl: string): (e: AppError)
    ensures e.statusCode == 404 && e.isOperational
    ensures e.message == "Not found - " + originalUrl
  {
    NewAppError("Not found - " + originalUrl, Some(404), None)
  }

  /** An `AppError` thrown by a handler comes back out with its own status
      and message (when both are truthy). */
  lemma AppErrorPassesThrough(a: AppError, stack: string, development: bool)
    requires a.statusCode != 0 && a.message != ""
    ensures HandleError(Thrown(a, stack), development).status == a.statusCode
    ensures HandleError(Thrown(a, stack), development).body.message == a.message
  {
  }

  /** An unknown route ends in a 404 whose message names the URL. */
  lemma NotFoundResponse(originalUrl: string, stack: string, development: bool)
    ensures var r := HandleError(Thrown(NotFoundHandler(originalUrl), stack), development);
      r.status == 404 && r.body.message == "Not found - " + originalUrl
  {
  }

  /** Any error named as a JWT failure is a 401, whatever else it carries. */
  lemma JwtErrorsAre401(err: ErrorValue, development: bool)
    requires IsJwtName(err.name)
    ensures HandleError(err, development).status == 401
    ensures HandleError(err, development).body.message == (if err.name == "TokenExpiredError" then TokenExpired else InvalidToken)
  {
  }

  /** A duplicate-key error without key information reports the field as
      `undefined`. */
  lemma DuplicateWithoutKeys(err: ErrorValue, development: bool)
    requires err.code == Some(DuplicateKeyCode) && err.keyValueKeys == []
    requires !err.isValidationError && !IsJwtName(err.name)
    ensures HandleError(err, development).status == 400
    ensures HandleError(err, development).body.message == "undefined already exists"
  {
  }

  /** A validation error with no field errors keeps its 400 but falls back to
      the generic message, since the joined message is empty. */
  lemma EmptyValidationMessage(err: ErrorValue, development: bool)
    requires err.isValidationError && err.fieldMessages == [] && !IsJwtName(err.name)
    ensures HandleError(err, development).status == 400
    ensures HandleError(err, development).body.message == DefaultMessage
  {
  }

  /** An error no rule recognises keeps its own status and message, with the
      defaults for falsy ones. */
  lemma UnclassifiedKeepsOwnFields(err: ErrorValue, development: bool)
    requires !IsJwtName(err.name) && !err.isValidationError && err.code != Some(DuplicateKeyCode) && !err.isCastError
    ensures HandleError(err, development).status == (if err.statusCode.Some? && err.statusCode.value != 0 then err.statusCode.value else DefaultStatus)
    ensures HandleError(err, development).body.message == (if err.message != "" then err.message else DefaultMessage)
  {
  }
}

=== FILE: form_validation.dfy ===
/** The field rules shared by the sign-in and sign-up forms
    (`frontend/src/pages/Signin.tsx`, `frontend/src/pages/Signup.tsx`): the
    email pattern `^[A-Z0-9._%+-]+@[A-Z0-9.-]+\.[A-Z]{2,}$` with the `i`
    flag, and the required / minimum-length rules. The pattern is given twice:
    as the scan the page effectively performs, and as the regular
    expression's meaning, and the two are proved equal. */
module FormValidation {
  import opened Wrappers
  import opened Strings

  const EmailRequired := "Email is required"
  const EmailInvalid := "Invalid email address"
  const PasswordRequired := "Password is required"
  const PasswordTooShort := "Password must be at least 6 characters"
  const MinPasswordLength: nat := 6

  /** `[A-Z0-9._%+-]` under the `i` flag. */
  predicate IsLocalChar(c: char)
  {
    IsAsciiLetter(c) || IsDigit(c) || c in "._%+-"
  }

  /** `[A-Z0-9.-]` under the `i` flag. */
  predicate IsDomainChar(c: char)
  {
    IsAsciiLetter(c) || IsDigit(c) || c in ".-"
  }

  predicate AllLocal(s: string)
  {
    forall k :: 0 <= k < |s| ==> IsLocalChar(s[k])
  }

  predicate AllDomain(s: string)
  {
    forall k :: 0 <= k < |s| ==> IsDomainChar(s[k])
  }

  predicate AllLetters(s: string)
  {
    forall k :: 0 <= k < |s| ==> IsAsciiLetter(s[k])
  }

  /** The pattern's meaning: `local@domain.tld` with a non-empty local part,
      a non-empty domain, and a top-level part of two or more letters. */
  ghost predicate EmailShape(s: string, local: string, domain: string, tld: string)
  {
    && s == local + "@" + domain + "." + tld
    && |local| > 0 && AllLocal(local)
    && |domain| > 0 && AllDomain(domain)
    && |tld| >= 2 && AllLetters(tld)
  }

  ghost predicate MatchesEmailPattern(s: string)
  {
    exists local, domain, tld :: EmailShape(s, local, domain, tld)
  }

  /** After the `@`: split at the last `.` (the top-level part cannot hold
      one). */
  predicate IsDomainPart(rest: string)
  {
    match LastIndexOf(rest, '.')
    case None => false
    case Some(d) => 0 < d && AllDomain(rest[..d]) && |rest| - d - 1 >= 2 && AllLetters(rest[d + 1..])
  }

  /** The scan: split at the first `@` (the local part cannot hold one). */
  predicate IsEmail(s: string)
  {
    var at := IndexOf(s, '@');
    0 < at < |s| && AllLocal(s[..at]) && IsDomainPart(s[at + 1..])
  }

  /** The scan accepts exactly the strings the pattern matches. */
  lemma IsEmailMatchesPattern(s: string)
    ensures IsEmail(s) <==> MatchesEmailPattern(s)
  {
    if IsEmail(s) {
      var at := IndexOf(s, '@');
      var rest := s[at + 1..];
      var d := LastIndexOf(rest, '.').value;
      assert rest == rest[..d] + "." + rest[d + 1..];
      assert s == s[..at] + "@" + rest;
      assert EmailShape(s, s[..at], rest[..d], rest[d + 1..]);
    }
    if MatchesEmailPattern(s) {
      var local, domain, tld :| EmailShape(s, local, domain, tld);
      PatternImpliesScan(s, local, domain, tld);
    }
  }

  lemma PatternImpliesScan(s: string, local: string, domain: string, tld: string)
    requires EmailShape(s, local, domain, tld)
    ensures IsEmail(s)
  {
    assert '@' !in local by {
      assert forall k :: 0 <= k < |local| ==> IsLocalChar(local[k]);
    }
    var rest := domain + "." + tld;
    assert s == local + "@" + rest;
    IndexOfAfterPrefix(local, '@', rest);
    assert s[|local| + 1..] == rest;
    assert s[..|local|] == local;
    DomainPartOfShape(domain, tld);
  }

  lemma DomainPartOfShape(domain: string, tld: string)
    requires |domain| > 0 && AllDomain(domain)
    requires |tld| >= 2 && AllLetters(tld)
    ensures IsDomainPart(domain + "." + tld)
  {
    assert '.' !in tld by {
      assert forall k :: 0 <= k < |tld| ==> IsAsciiLetter(tld[k]);
    }
    var rest := domain + "." + tld;
    LastIndexOfBeforeSuffix(domain, '.', tld);
    assert rest[..|domain|] == domain && rest[|domain| + 1..] == tld;
  }

  /** An accepted email holds exactly one `@` and no whitespace. */
  lemma EmailHasOneAtNoSpace(s: string)
    requires IsEmail(s)
    ensures '@' in s
    ensures forall i, j :: 0 <= i < j < |s| && s[i] == '@' ==> s[j] != '@'
    ensures forall k :: 0 <= k < |s| ==> !IsJsSpace(s[k])
  {
    var at := IndexOf(s, '@');
    var rest := s[at + 1..];
    var d := LastIndexOf(rest, '.').value;
    assert rest == rest[..d] + "." + rest[d + 1..];
    forall k | 0 <= k < |s| ensures !IsJsSpace(s[k]) && (s[k] == '@' ==> k == at) {
      if k < at {
        assert IsLocalChar(s[..at][k]);
      } else if at < k {
        var j := k - at - 1;
        assert s[k] == rest[j];
        if j < d {
          assert IsDomainChar(rest[..d][j]);
        } else if j > d {
          assert IsAsciiLetter(rest[d + 1..][j - d - 1]);
        }
      }
    }
  }

  /** `required` then `pattern` for the email field. */
  function EmailError(email: string): (e: Option<string>)
    ensures email == "" ==> e == Some(EmailRequired)
    ensures email != "" ==> (e.None? <==> MatchesEmailPattern(email))
    ensures email != "" && e.Some? ==> e.value == EmailInvalid
  {
    IsEmailMatchesPattern(email);
    if email == "" then Some(EmailRequired)
    else if !IsEmail(email) then Some(EmailInvalid)
    else None
  }

  /** `required` then `minLength: 6` for the password field. */
  function PasswordError(password: string): (e: Option<string>)
    ensures e.None? <==> |password| >= MinPasswordLength
    ensures password == "" ==> e == Some(PasswordRequired)
    ensures 0 < |password| < MinPasswordLength ==> e == Some(PasswordTooShort)
  {
    if password == "" then Some(PasswordRequired)
    else if |password| < MinPasswordLength then Some(PasswordTooShort)
    else None
  }
}

=== FILE: generate_token.dfy ===
/** Token issuing (`backend/src/utils/generateToken.ts`): the expiry read
    from the environment by `parseExpiration`, and the refusal to sign
    without a secret. Signing itself is the `jsonwebtoken` library; the model
    returns the request it would be given. */
module GenerateToken {
  import opened Wrappers
  import opened Strings

  /** `expiresIn`: a number of seconds, or a timespan string such as "7d". */
  datatype Expiration = Seconds(n: nat) | Span(text: string)

  /** The arguments of `jwt.sign({ id }, secret, { expiresIn })`. */
  datatype SignRequest = SignRequest(id: string, secret: string, expiresIn: Expiration)

  const AccessFallback := Seconds(900)
  const RefreshFallback := Span("7d")
  const AccessSecretMissing := "JWT_ACCESS_SECRET is not defined"
  const RefreshSecretMissing := "JWT_REFRESH_SECRET is not defined"

  /** `parseExpiration`: the fallback for a missing or empty value; otherwise
      the trimmed value, read as seconds when it is all digits. */
  function ParseExpiration(val: Option<string>, fallback: Expiration): (r: Expiration)
    ensures !Truthy(val) ==> r == fallback
    ensures Truthy(val) && r.Seconds? ==> IsDigitString(Trim(val.value)) && r.n == DigitsValue(Trim(val.value))
    ensures Truthy(val) && r.Span? ==> !IsDigitString(Trim(val.value)) && r.text == Trim(val.value)
  {
    if !Truthy(val) then fallback
    else
      var trimmed := Trim(val.value);
      if IsDigitString(trimmed) then Seconds(DigitsValue(trimmed)) else Span(trimmed)
  }

  /** `k` zero digits. */
  function Zeros(k: nat): (z: string)
    ensures |z| == k && forall i :: 0 <= i < k ==> z[i] == '0'
  {
    seq(k, _ => '0')
  }

  /** A padded digit string is read as the number it denotes. */
  lemma PaddedDigits(p: string, d: string, q: string, fallback: Expiration)
    requires AllSpace(p) && AllSpace(q) && IsDigitString(d)
    ensures ParseExpiration(Some(p + d + q), fallback) == Seconds(DigitsValue(d))
  {
    assert !IsJsSpace(d[0]) && !IsJsSpace(d[|d| - 1]);
    TrimPadded(p, d, q);
  }

  /** A number of seconds written in decimal, with any padding and leading
      zeros, is read back as that number. */
  lemma SecondsRoundTrip(n: nat, zeros: nat, p: string, q: string, fallback: Expiration)
    requires AllSpace(p) && AllSpace(q)
    ensures ParseExpiration(Some(p + (Zeros(zeros) + NatToString(n)) + q), fallback) == Seconds(n)
  {
    PaddedZerosValue(zeros, NatToString(n));
    PaddedDigits(p, Zeros(zeros) + NatToString(n), q, fallback);
  }

  /** Leading zeros keep a digit string's value. */
  lemma {:induction false} PaddedZerosValue(zeros: nat, s: string)
    requires IsDigitString(s)
    ensures IsDigitString(Zeros(zeros) + s)
    ensures DigitsValue(Zeros(zeros) + s) == DigitsValue(s)
    decreases zeros
  {
    if zeros > 0 {
      var z := Zeros(zeros - 1);
      assert Zeros(zeros) == "0" + z;
      assert Zeros(zeros) + s == "0" + (z + s);
      PaddedZerosValue(zeros - 1, s);
      LeadingZeroIgnored(z + s);
    } else {
      assert Zeros(zeros) + s == s;
    }
  }

  /** A timespan such as "7d" or "15m" is passed on as text, without its
      padding. */
  lemma SpanRoundTrip(t: string, p: string, q: string, fallback: Expiration)
    requires AllSpace(p) && AllSpace(q)
    requires t != [] && !IsJsSpace(t[0]) && !IsJsSpace(t[|t| - 1]) && !IsDigitString(t)
    ensures ParseExpiration(Some(p + t + q), fallback) == Span(t)
  {
    TrimPadded(p, t, q);
  }

  /** A value of whitespace only is truthy, so it does not fall back: it
      becomes an empty timespan. */
  lemma BlankIsNotFallback(val: string, fallback: Expiration)
    requires val != [] && AllSpace(val)
    ensures ParseExpiration(Some(val), fallback) == Span("")
  {
    TrimEmptyIffAllSpace(val);
  }

  /** `generateAccessToken`: refuses without a secret, else signs `{ id }`
      with `JWT_ACCESS_EXPIRATION` or 900 seconds. */
  function GenerateAccessToken(secret: Option<string>, expiration: Option<string>, id: string): (r: Result<SignRequest, string>)
    ensures !Truthy(secret) <==> r == Failure(AccessSecretMissing)
    ensures r.Success? ==> r.value.id == id && r.value.secret == secret.value && r.value.secret != ""
    ensures r.Success? && !Truthy(expiration) ==> r.value.expiresIn == AccessFallback
    ensures r.Success? ==> r.value.expiresIn == ParseExpiration(expiration, AccessFallback)
  {
    if !Truthy(secret) then Failure(AccessSecretMissing)
    else Success(SignRequest(id, secret.value, ParseExpiration(expiration, AccessFallback)))
  }

  /** `generateRefreshToken`: the same with `JWT_REFRESH_SECRET` and a
      seven-day fallback. */
  function GenerateRefreshToken(secret: Option<string>, expiration: Option<string>, id: string): (r: Result<SignRequest, string>)
    ensures !Truthy(secret) <==> r == Failure(RefreshSecretMissing)
    ensures r.Success? ==> r.value.id == id && r.value.secret == secret.value && r.value.secret != ""
    ensures r.Success? && !Truthy(expiration) ==> r.value.expiresIn == RefreshFallback
    ensures r.Success? ==> r.value.expiresIn == ParseExpiration(expiration, RefreshFallback)
  {
    if !Truthy(secret) then Failure(RefreshSecretMissing)
    else Success(SignRequest(id, secret.value, ParseExpiration(expiration, RefreshFallback)))
  }
}

=== FILE: legacy_chat_server.dfy ===
/** The older in-memory chat server (`backend/server.js`): a process-wide
    `chatMessages` array, `join-room` replaying the room's last 50 messages to
    the joiner, `chat-message` appending and broadcasting, and `disconnect`, where
    socket.io detaches the socket and the listener only logs. */
module LegacyChatServer {
  import opened Presence

  /** A message as pushed on `chatMessages`; `time` and `id` are two reads of
      the clock (`new Date()`, `Date.now()`). */
  datatype Message = Message(roomId: RoomId, user: string, text: string, time: int, id: int)

  datatype State = State(messages: seq<Message>, live: Live)

  datatype Event = ChatHistoryEvent(history: seq<Message>) | ChatMessageEvent(message: Message)

  datatype Step = Step(state: State, out: seq<Emission<Event>>)

  const HistoryLimit: nat := 50

  /** `chatMessages.filter(msg => msg.roomId === roomId)`. */
  function RoomMessages(messages: seq<Message>, room: RoomId): (r: seq<Message>)
    ensures forall k :: 0 <= k < |r| ==> r[k].roomId == room
    ensures forall m :: m in messages && m.roomId == room ==> m in r
    ensures forall m :: m in r ==> m in messages
    // each message of the room is kept as often as it occurs, no other one
    ensures forall m :: multiset(r)[m] == if m.roomId == room then multiset(messages)[m] else 0
    decreases |messages|
  {
    if messages == [] then []
    else
      var init := messages[..|messages| - 1];
      var last := messages[|messages| - 1];
      assert messages == init + [last];
      assert multiset(messages) == multiset(init) + multiset{last};
      var rest := RoomMessages(init, room);
      if last.roomId == room then
        assert multiset(rest + [last]) == multiset(rest) + multiset{last};
        rest + [last]
      else rest
  }

  /** Pushing a message extends its own room's view by that message and
      leaves every other room's view as it was. */
  lemma RoomMessagesAppend(messages: seq<Message>, m: Message, room: RoomId)
    ensures RoomMessages(messages + [m], room) == RoomMessages(messages, room) + (if m.roomId == room then [m] else [])
  {
    assert (messages + [m])[..|messages|] == messages;
  }

  /** `slice(-50)`: the last 50 entries, or all of them when fewer. */
  function Last50(s: seq<Message>): (r: seq<Message>)
    ensures |r| <= HistoryLimit
    ensures |r| == if |s| <= HistoryLimit then |s| else HistoryLimit
    ensures |s| <= HistoryLimit ==> r == s
    ensures s == s[..|s| - |r|] + r
  {
    if |s| <= HistoryLimit then s else s[|s| - HistoryLimit..]
  }

  /** `join-room`: the socket joins the room and receives the room's history. */
  function JoinRoom(st: State, socket: SocketId, roomId: RoomId): (r: Step)
    ensures r.state.messages == st.messages
    ensures SocketsIn(r.state.live, roomId) == SocketsIn(st.live, roomId) + {socket}
    ensures |r.out| == 1 && r.out[0].recipients == {socket} && r.out[0].event.ChatHistoryEvent?
    ensures var h := r.out[0].event.history;
      && |h| == (if |RoomMessages(st.messages, roomId)| <= HistoryLimit then |RoomMessages(st.messages, roomId)| else HistoryLimit)
      && (forall k :: 0 <= k < |h| ==> h[k].roomId == roomId)
      && (exists pre :: RoomMessages(st.messages, roomId) == pre + h)
      && (|RoomMessages(st.messages, roomId)| <= HistoryLimit ==> h == RoomMessages(st.messages, roomId))
  {
    var h := Last50(RoomMessages(st.messages, roomId));
    var all := RoomMessages(st.messages, roomId);
    assert all == all[..|all| - |h|] + h;
    Step(st.(live := Attach(st.live, socket, roomId)), [ToSocket(socket, ChatHistoryEvent(h))])
  }

  /** `chat-message`: appends one message and broadcasts it to every socket
      in the room; the sender is not attached to the room by sending. */
  function ChatMessageHandler(st: State, roomId: RoomId, user: string, text: string, time: int, id: int): (r: Step)
    ensures |r.state.messages| == |st.messages| + 1
    ensures r.state.messages[..|st.messages|] == st.messages
    ensures r.state.messages[|st.messages|] == Message(roomId, user, text, time, id)
    ensures r.state.live == st.live
    ensures r.out == [Emission(ToRoom(roomId), SocketsIn(st.live, roomId), ChatMessageEvent(Message(roomId, user, text, time, id)))]
  {
    var m := Message(roomId, user, text, time, id);
    Step(st.(messages := st.messages + [m]), [ToRoomOf(st.live, roomId, ChatMessageEvent(m))])
  }

  /** A closing socket: socket.io takes it out of every room, then the
      `disconnect` listener only logs. */
  function Disconnect(st: State, socket: SocketId): (r: Step)
    ensures r.out == []
    ensures RoomsOf(r.state.live, socket) == {}
    ensures forall other :: other != socket ==> RoomsOf(r.state.live, other) == RoomsOf(st.live, other)
    ensures r.state.messages == st.messages
  {
    Step(st.(live := DetachSocket(st.live, socket)), [])
  }

  /** A disconnected socket receives no later chat message, in any room. */
  lemma DisconnectedSocketMissesMessages(st: State, socket: SocketId, roomId: RoomId, user: string, text: string,
                                         time: int, id: int)
    ensures var st1 := Disconnect(st, socket).state;
      socket !in ChatMessageHandler(st1, roomId, user, text, time, id).out[0].recipients
  {
    var st1 := Disconnect(st, socket).state;
    assert socket !in SocketsIn(st1.live, roomId);
  }

  /** A message sent to room A is never replayed to a joiner of room B, and
      it is replayed (as the newest entry) to the next joiner of room A. */
  lemma {:induction false} HistoryIsRoomScoped(st: State, roomA: RoomId, roomB: RoomId, user: string, text: string,
                                               time: int, id: int, joiner: SocketId)
    requires roomA != roomB
    ensures var st1 := ChatMessageHandler(st, roomA, user, text, time, id).state;
      && Message(roomA, user, text, time, id) !in JoinRoom(st1, joiner, roomB).out[0].event.history
      && JoinRoom(st1, joiner, roomB).out[0].event.history == JoinRoom(st, joiner, roomB).out[0].event.history
      && var hA := JoinRoom(st1, joiner, roomA).out[0].event.history;
         |hA| > 0 && hA[|hA| - 1] == Message(roomA, user, text, time, id)
  {
    var m := Message(roomA, user, text, time, id);
    var msgs := st.messages + [m];
    assert msgs[..|msgs| - 1] == st.messages;
    assert RoomMessages(msgs, roomB) == RoomMessages(st.messages, roomB);
    assert RoomMessages(msgs, roomA) == RoomMessages(st.messages, roomA) + [m];
    var all := RoomMessages(msgs, roomA);
    var hA := Last50(all);
    assert all == all[..|all| - |hA|] + hA;
    assert hA[|hA| - 1] == all[|all| - 1];
  }
}

=== FILE: oauth_linking.dfy ===
/** The Google and GitHub verify callbacks of `backend/src/utils/passport.ts`
    and `serializeUser`: derive an email and a display name from the
    provider profile, then find the user by email, link the provider to it
    if it has none, or create a new SSO user. The user collection is a
    sequence; `findOne` returns the first match. */
module OAuthLinking {
  import opened Wrappers
  import opened Store
  import opened Strings

  datatype Provider = Google | GitHub

  /** A user document (`userModel.ts`); `ssoProvider`/`ssoId` default to null. */
  datatype User = User(id: string, name: string, email: string, password: string,
                       ssoProvider: Option<Provider>, ssoId: Option<string>)

  /** The parts of a Google profile the callback reads. */
  datatype GoogleProfile = GoogleProfile(id: string, emails: seq<string>, displayName: Option<string>,
                                         givenName: Option<string>)

  /** The parts of a GitHub profile the callback reads. */
  datatype GitHubProfile = GitHubProfile(id: string, emails: seq<string>, username: Option<string>,
                                         displayName: Option<string>)

  datatype AuthError = NoEmail(message: string) | StoreFailed

  /** The collection after the callback, and what it passed to `done`. */
  datatype Outcome = Outcome(users: seq<User>, result: Result<User, AuthError>)

  const GoogleNoEmail := "No email found in Google profile"
  const GitHubNoEmail := "No email found in GitHub profile"
  const GitHubNoReplyDomain := "@users.noreply.github.com"

  /** `profile.emails?.[0]?.value`. */
  function FirstEmail(emails: seq<string>): Option<string>
  {
    if |emails| > 0 then Some(emails[0]) else None
  }

  /** Google: the first profile email, if any. */
  function GoogleEmail(p: GoogleProfile): Option<string>
  {
    FirstEmail(p.emails)
  }

  /** GitHub: the first profile email, else `<username>@users.noreply.github.com`
      when there is a username (`emailFromProfile || fallbackEmail`). */
  function GitHubEmail(p: GitHubProfile): (r: Option<string>)
    ensures Truthy(FirstEmail(p.emails)) ==> r == FirstEmail(p.emails)
    ensures !Truthy(FirstEmail(p.emails)) && Truthy(p.username) ==> r == Some(p.username.value + GitHubNoReplyDomain)
    ensures !Truthy(FirstEmail(p.emails)) && !Truthy(p.username) ==> !Truthy(r)
  {
    var fallback := if Truthy(p.username) then Some(p.username.value + GitHubNoReplyDomain) else None;
    if Truthy(FirstEmail(p.emails)) then FirstEmail(p.emails) else fallback
  }

  /** Google: displayName, then givenName, then "Google User". */
  function GoogleName(p: GoogleProfile): (r: string)
    ensures r != ""
    ensures Truthy(p.displayName) ==> r == p.displayName.value
    ensures !Truthy(p.displayName) && Truthy(p.givenName) ==> r == p.givenName.value
    ensures !Truthy(p.displayName) && !Truthy(p.givenName) ==> r == "Google User"
  {
    OrElse(p.displayName, OrElse(p.givenName, "Google User"))
  }

  /** GitHub: displayName, then username, then "GitHub User". */
  function GitHubName(p: GitHubProfile): (r: string)
    ensures r != ""
    ensures Truthy(p.displayName) ==> r == p.displayName.value
    ensures !Truthy(p.displayName) && Truthy(p.username) ==> r == p.username.value
    ensures !Truthy(p.displayName) && !Truthy(p.username) ==> r == "GitHub User"
  {
    OrElse(p.displayName, OrElse(p.username, "GitHub User"))
  }

  /** `User.findOne({ email })`: the index of the first user with `email`. */
  function FindByEmail(users: seq<User>, email: string): (r: Option<nat>)
    ensures r.Some? ==> r.value < |users| && users[r.value].email == email
    ensures r.None? <==> forall k :: 0 <= k < |users| ==> users[k].email != email
    decreases |users|
  {
    if users == [] then None
    else if users[0].email == email then Some(0)
    else
      match FindByEmail(users[1..], email)
      case None => None
      case Some(k) => Some(k + 1)
  }

  /** `!user.ssoProvider || !user.ssoId`. */
  predicate NeedsLink(u: User)
  {
    u.ssoProvider.None? || !Truthy(u.ssoId)
  }

  /** No two users share an email (the schema's unique index). */
  ghost predicate UniqueEmails(users: seq<User>)
  {
    forall i, j :: 0 <= i < j < |users| ==> users[i].email != users[j].email
  }

  /** Find, link or create by email. Store accesses: 0 = the lookup, 1 = the
      save of a linked user or the creation of a new one (a taken `freshId`
      makes the creation throw). */
  function LinkOrCreate(users: seq<User>, provider: Provider, providerId: string, email: string, name: string,
                        freshId: string, fault: StoreFault): (r: Outcome)
    ensures r.result.Failure? ==> r.users == users
    // a failure is exactly a throwing lookup, link save or creation
    ensures r.result.Failure? <==>
              || Throws(fault, 0)
              || (FindByEmail(users, email).Some? && NeedsLink(users[FindByEmail(users, email).value]) && Throws(fault, 1))
              || (FindByEmail(users, email).None? && (Throws(fault, 1) || exists k :: 0 <= k < |users| && users[k].id == freshId))
    // an existing user with both SSO fields set is returned unchanged
    ensures !Throws(fault, 0) && FindByEmail(users, email).Some? && !NeedsLink(users[FindByEmail(users, email).value]) ==>
              r.users == users && r.result == Success(users[FindByEmail(users, email).value])
    // one missing either field gets both overwritten with this provider
    ensures NoFaultBefore(fault, 2) && FindByEmail(users, email).Some? && NeedsLink(users[FindByEmail(users, email).value]) ==>
              var k := FindByEmail(users, email).value;
              var u := users[k].(ssoProvider := Some(provider), ssoId := Some(providerId));
              r.users == users[k := u] && r.result == Success(u)
    // an unknown email creates exactly one SSO user with an empty password
    ensures NoFaultBefore(fault, 2) && FindByEmail(users, email).None? && (forall k :: 0 <= k < |users| ==> users[k].id != freshId) ==>
              var u := User(freshId, name, email, "", Some(provider), Some(providerId));
              r.users == users + [u] && r.result == Success(u)
    ensures r.result.Success? ==> r.result.value.email == email && r.result.value in r.users
    ensures |r.users| <= |users| + 1
  {
    if Throws(fault, 0) then Outcome(users, Failure(StoreFailed))
    else
      match FindByEmail(users, email)
      case Some(k) =>
        var u := users[k];
        if !NeedsLink(u) then Outcome(users, Success(u))
        else if Throws(fault, 1) then Outcome(users, Failure(StoreFailed))
        else
          var u' := u.(ssoProvider := Some(provider), ssoId := Some(providerId));
          assert users[k := u'][k] == u';
          Outcome(users[k := u'], Success(u'))
      case None =>
        if Throws(fault, 1) || exists k :: 0 <= k < |users| && users[k].id == freshId then
          Outcome(users, Failure(StoreFailed))
        else
          var u := User(freshId, name, email, "", Some(provider), Some(providerId));
          Outcome(users + [u], Success(u))
  }

  /** The Google verify callback. */
  function GoogleVerify(users: seq<User>, p: GoogleProfile, freshId: string, fault: StoreFault): (r: Outcome)
    ensures !Truthy(GoogleEmail(p)) ==> r == Outcome(users, Failure(NoEmail(GoogleNoEmail)))
    ensures Truthy(GoogleEmail(p)) ==> r == LinkOrCreate(users, Google, p.id, GoogleEmail(p).value, GoogleName(p), freshId, fault)
  {
    var email := GoogleEmail(p);
    if !Truthy(email) then Outcome(users, Failure(NoEmail(GoogleNoEmail)))
    else LinkOrCreate(users, Google, p.id, email.value, GoogleName(p), freshId, fault)
  }

  /** The GitHub verify callback. */
  function GitHubVerify(users: seq<User>, p: GitHubProfile, freshId: string, fault: StoreFault): (r: Outcome)
    ensures !Truthy(GitHubEmail(p)) ==> r == Outcome(users, Failure(NoEmail(GitHubNoEmail)))
    ensures Truthy(GitHubEmail(p)) ==> r == LinkOrCreate(users, GitHub, p.id, GitHubEmail(p).value, GitHubName(p), freshId, fault)
  {
    var email := GitHubEmail(p);
    if !Truthy(email) then Outcome(users, Failure(NoEmail(GitHubNoEmail)))
    else LinkOrCreate(users, GitHub, p.id, email.value, GitHubName(p), freshId, fault)
  }

  /** A GitHub profile with neither an email nor a username is rejected and
      the collection is left as it was. */
  lemma GitHubNeedsEmailOrUsername(users: seq<User>, p: GitHubProfile, freshId: string, fault: StoreFault)
    requires !Truthy(FirstEmail(p.emails)) && !Truthy(p.username)
    ensures GitHubVerify(users, p, freshId, fault) == Outcome(users, Failure(NoEmail(GitHubNoEmail)))
  {
  }

  /** A user linked through GitHub who signs in with Google keeps the GitHub
      link: the lookup is by email only. */
  lemma CrossProviderLinkKept(users: seq<User>, p: GoogleProfile, freshId: string, fault: StoreFault)
    requires Truthy(GoogleEmail(p)) && !Throws(fault, 0)
    requires FindByEmail(users, GoogleEmail(p).value).Some?
    requires var u := users[FindByEmail(users, GoogleEmail(p).value).value];
      u.ssoProvider == Some(GitHub) && Truthy(u.ssoId)
    ensures var r := GoogleVerify(users, p, freshId, fault);
      r.users == users && r.result.Success? && r.result.value.ssoProvider == Some(GitHub)
  {
  }

  /** Because the lookup precedes creation, linking keeps emails unique. */
  lemma {:induction false} LinkOrCreateKeepsUniqueEmails(users: seq<User>, provider: Provider, providerId: string,
                                                         email: string, name: string, freshId: string, fault: StoreFault)
    requires UniqueEmails(users)
    ensures UniqueEmails(LinkOrCreate(users, provider, providerId, email, name, freshId, fault).users)
  {
    var r := LinkOrCreate(users, provider, providerId, email, name, freshId, fault);
    if r.users != users {
      match FindByEmail(users, email)
      case Some(k) =>
        forall i, j | 0 <= i < j < |r.users| ensures r.users[i].email != r.users[j].email {
          assert r.users[i].email == users[i].email && r.users[j].email == users[j].email;
        }
      case None =>
        forall i, j | 0 <= i < j < |r.users| ensures r.users[i].email != r.users[j].email {
          if j == |users| {
            assert r.users[i] == users[i];
          } else {
            assert r.users[i] == users[i] && r.users[j] == users[j];
          }
        }
    }
  }

  /** `serializeUser`: the user's id as a string, or nothing when it has no
      (non-empty) id. */
  function SerializeUser(user: Option<User>): (r: Option<string>)
    ensures user.Some? && user.value.id != "" ==> r == Some(user.value.id)
    ensures r.Some? ==> user.Some? && r.value == user.value.id && r.value != ""
  {
    if user.Some? && user.value.id != "" then Some(user.value.id) else None
  }

  /** `User.findById`: the first user with this id. */
  function FindById(users: seq<User>, id: string): (r: Option<User>)
    ensures r.Some? ==> r.value in users && r.value.id == id
    ensures r.None? <==> forall k :: 0 <= k < |users| ==> users[k].id != id
    decreases |users|
  {
    if users == [] then None
    else if users[0].id == id then Some(users[0])
    else FindById(users[1..], id)
  }

  /** `deserializeUser`: the stored user with this id, nothing when there is
      none, and an error when the lookup by id throws (store access 0), which
      it also does for an id that is not a document id. */
  function DeserializeUser(users: seq<User>, id: string, fault: StoreFault): (r: Result<Option<User>, AuthError>)
    ensures ByIdThrows(fault, 0, id) <==> r.Failure?
    ensures r.Success? && r.value.Some? ==> r.value.value in users && r.value.value.id == id
    ensures r.Success? && r.value.None? ==> forall k :: 0 <= k < |users| ==> users[k].id != id
  {
    if ByIdThrows(fault, 0, id) then Failure(StoreFailed) else Success(FindById(users, id))
  }

  /** No two users share an id. */
  ghost predicate UniqueIds(users: seq<User>)
  {
    forall i, j :: 0 <= i < j < |users| ==> users[i].id != users[j].id
  }

  /** Serializing a stored user into the session and reading it back yields
      the same user, ids being unique document ids. */
  lemma {:induction false} SessionRoundTrip(users: seq<User>, k: nat)
    requires UniqueIds(users) && k < |users| && IsObjectId(users[k].id)
    ensures SerializeUser(Some(users[k])).Some?
    ensures DeserializeUser(users, SerializeUser(Some(users[k])).value, Healthy) == Success(Some(users[k]))
    decreases k
  {
    if k > 0 {
      assert users[0].id != users[k].id;
      var tail := users[1..];
      assert UniqueIds(tail) by {
        forall i, j | 0 <= i < j < |tail| ensures tail[i].id != tail[j].id {
          assert tail[i] == users[i + 1] && tail[j] == users[j + 1];
        }
      }
      assert tail[k - 1] == users[k];
      SessionRoundTrip(tail, k - 1);
    }
  }
}

=== FILE: oauth_success.dfy ===
/** The OAuth landing page (`frontend/src/pages/OAuthSuccess.tsx`): find a
    token in the URL (query string first, then fragment), otherwise ask the
    refresh endpoint for one, then store it and redirect. Percent-decoding
    is a parameter; the fetch, storage and timers are inputs and outputs. */
module OAuthSuccess {
  import opened Wrappers
  import opened Strings

  datatype Param = Param(key: string, value: string)

  // ---------------------------------------------------------------------
  // URLSearchParams
  // ---------------------------------------------------------------------

  /** One `name=value` piece: split at the first `=`; no `=` means an empty
      value. */
  function PieceParam(piece: string, decode: string -> string): Param
  {
    var i := IndexOf(piece, '=');
    if i < |piece| then Param(decode(piece[..i]), decode(piece[i + 1..]))
    else Param(decode(piece), decode(""))
  }

  /** The non-empty `&`-separated pieces, in order. */
  function PiecesParams(pieces: seq<string>, decode: string -> string): (r: seq<Param>)
    ensures |r| <= |pieces|
    decreases |pieces|
  {
    if pieces == [] then []
    else if pieces[0] == "" then PiecesParams(pieces[1..], decode)
    else [PieceParam(pieces[0], decode)] + PiecesParams(pieces[1..], decode)
  }

  /** `new URLSearchParams(s)`: a single leading `?` is dropped. */
  function ParseParams(s: string, decode: string -> string): seq<Param>
  {
    var body := if |s| > 0 && s[0] == '?' then s[1..] else s;
    PiecesParams(Split(body, '&'), decode)
  }

  /** `params.get(key)`: the first value under `key`. */
  function Get(ps: seq<Param>, key: string): (r: Option<string>)
    ensures r.None? <==> forall k :: 0 <= k < |ps| ==> ps[k].key != key
    // the value of the first parameter under `key`, not of a later one
    ensures r.Some? ==> exists k :: 0 <= k < |ps| && ps[k] == Param(key, r.value) && forall j :: 0 <= j < k ==> ps[j].key != key
    decreases |ps|
  {
    if ps == [] then None
    else if ps[0].key == key then Some(ps[0].value)
    else Get(ps[1..], key)
  }

  /** A query string holding a single parameter yields its value. */
  lemma SingleParam(key: string, value: string, decode: string -> string)
    requires key != "" && '=' !in key && '&' !in key && '&' !in value && key[0] != '?'
    requires decode(key) == key
    ensures Get(ParseParams("?" + key + "=" + value, decode), key) == Some(decode(value))
  {
    var body := key + "=" + value;
    assert ("?" + key + "=" + value)[1..] == body;
    NoSeparatorOneField(body, '&');
    assert PiecesParams([body], decode) == [PieceParam(body, decode)];
    IndexOfAfterPrefix(key, '=', value);
    assert body[..|key|] == key && body[|key| + 1..] == value;
  }

  /** A string without the separator splits into itself alone. */
  lemma NoSeparatorOneField(s: string, c: char)
    requires c !in s
    ensures Split(s, c) == [s]
  {
    SplitFirstField(s, c);
    assert IndexOf(s, c) == |s|;
    assert s[..|s|] == s;
  }

  // ---------------------------------------------------------------------
  // extractTokenFromUrl
  // ---------------------------------------------------------------------

  /** `get("token") || get("accessToken") || get("authToken")`. */
  function PickToken(ps: seq<Param>): (r: Option<string>)
    ensures Truthy(Get(ps, "token")) ==> r == Get(ps, "token")
    ensures !Truthy(Get(ps, "token")) && Truthy(Get(ps, "accessToken")) ==> r == Get(ps, "accessToken")
    ensures !Truthy(Get(ps, "token")) && !Truthy(Get(ps, "accessToken")) ==> r == Get(ps, "authToken")
  {
    if Truthy(Get(ps, "token")) then Get(ps, "token")
    else if Truthy(Get(ps, "accessToken")) then Get(ps, "accessToken")
    else Get(ps, "authToken")
  }

  /** The fragment without its one leading `#`. */
  function Fragment(hash: string): (f: string)
    ensures |hash| > 0 && hash[0] == '#' ==> hash == "#" + f
    ensures !(|hash| > 0 && hash[0] == '#') ==> f == hash
  {
    if |hash| > 0 && hash[0] == '#' then hash[1..] else hash
  }

  /** `extractTokenFromUrl`: a non-empty token from the query string, else
      from the fragment, else nothing. */
  function ExtractToken(search: string, hash: string, decode: string -> string): (r: Option<string>)
    ensures r.Some? ==> r.value != ""
    ensures Truthy(PickToken(ParseParams(search, decode))) ==> r == PickToken(ParseParams(search, decode))
    ensures !Truthy(PickToken(ParseParams(search, decode))) ==>
              r == (if Truthy(PickToken(ParseParams(Fragment(hash), decode))) then PickToken(ParseParams(Fragment(hash), decode)) else None)
  {
    var q := PickToken(ParseParams(search, decode));
    if Truthy(q) then q
    else
      var h := PickToken(ParseParams(Fragment(hash), decode));
      if Truthy(h) then h else None
  }

  /** A leading `#` makes no difference, but only one is removed. */
  lemma HashMarkIsOptional(search: string, f: string, decode: string -> string)
    requires !(|f| > 0 && f[0] == '#')
    ensures ExtractToken(search, "#" + f, decode) == ExtractToken(search, f, decode)
  {
    assert ("#" + f)[1..] == f;
  }

  // ---------------------------------------------------------------------
  // The page's effect
  // ---------------------------------------------------------------------

  /** The refresh endpoint's JSON body (absent when it does not parse). */
  datatype RefreshBody = RefreshBody(message: Option<string>, accessToken: Option<string>, token: Option<string>)

  /** What `fetch('/api/auth/refresh')` produced. */
  datatype Refresh = NetworkFailure | Answer(ok: bool, status: int, body: Option<RefreshBody>)

  /** The message shown, the token written to storage (if any), and the
      delayed navigation. */
  datatype Outcome = Outcome(message: string, stored: Option<string>, navigateTo: string, delayMs: nat)

  const SuccessMessage := "Sign in successful \U{2014} redirecting..."
  const NotPersistedMessage := "Signed in but could not persist session locally. Redirecting..."
  const NoTokenMessage := "No access token returned from server. Please try signing in again."
  const NetworkMessage := "Network error finalizing sign-in. Please try again."

  function RefreshFailedMessage(status: int): string
  {
    "Failed to refresh token (status " + IntToString(status) + ")"
  }

  /** `data?.accessToken || data?.token || null`. */
  function RefreshToken(body: Option<RefreshBody>): (r: Option<string>)
    ensures r.Some? ==> r.value != ""
    ensures body.Some? && Truthy(body.value.accessToken) ==> r == body.value.accessToken
    ensures body.Some? && !Truthy(body.value.accessToken) && Truthy(body.value.token) ==> r == body.value.token
    ensures r.None? <==> body.None? || (!Truthy(body.value.accessToken) && !Truthy(body.value.token))
  {
    if body.Some? && Truthy(body.value.accessToken) then body.value.accessToken
    else if body.Some? && Truthy(body.value.token) then body.value.token
    else None
  }

  /** The effect. The refresh answer is consulted only without a URL token;
      `storageOk` says whether `localStorage.setItem` succeeds. */
  function Finalize(search: string, hash: string, decode: string -> string, storageOk: bool, refresh: Refresh): (r: Outcome)
    // a URL token is stored (when storage works) and the refresh is never used
    ensures ExtractToken(search, hash, decode).Some? ==>
              r.navigateTo == "/" && r.stored == (if storageOk then ExtractToken(search, hash, decode) else None)
    ensures ExtractToken(search, hash, decode).None? && refresh.NetworkFailure? ==>
              r == Outcome(NetworkMessage, None, "/signin", 1400)
    ensures ExtractToken(search, hash, decode).None? && refresh.Answer? && !refresh.ok ==>
              r.navigateTo == "/signin" && r.stored.None? &&
              r.message == (if refresh.body.Some? && Truthy(refresh.body.value.message) then refresh.body.value.message.value
                            else RefreshFailedMessage(refresh.status))
    ensures ExtractToken(search, hash, decode).None? && refresh.Answer? && refresh.ok && RefreshToken(refresh.body).None? ==>
              r == Outcome(NoTokenMessage, None, "/signin", 1300)
    ensures ExtractToken(search, hash, decode).None? && refresh.Answer? && refresh.ok && RefreshToken(refresh.body).Some? ==>
              r.message == SuccessMessage && r.navigateTo == "/" &&
              r.stored == (if storageOk then RefreshToken(refresh.body) else None)
    ensures r.navigateTo == "/" <==>
              ExtractToken(search, hash, decode).Some? || (refresh.Answer? && refresh.ok && RefreshToken(refresh.body).Some?)
  {
    var fromUrl := ExtractToken(search, hash, decode);
    if fromUrl.Some? then
      if storageOk then Outcome(SuccessMessage, fromUrl, "/", 700)
      else Outcome(NotPersistedMessage, None, "/", 1200)
    else
      match refresh
      case NetworkFailure => Outcome(NetworkMessage, None, "/signin", 1400)
      case Answer(ok, status, body) =>
        if !ok then
          var msg := if body.Some? && Truthy(body.value.message) then body.value.message.value else RefreshFailedMessage(status);
          Outcome(msg, None, "/signin", 1400)
        else
          var token := RefreshToken(body);
          if token.None? then Outcome(NoTokenMessage, None, "/signin", 1300)
          else Outcome(SuccessMessage, if storageOk then token else None, "/", 700)
  }

  /** A URL token makes the refresh call irrelevant. */
  lemma UrlTokenSkipsRefresh(search: string, hash: string, decode: string -> string, storageOk: bool, a: Refresh, b: Refresh)
    requires ExtractToken(search, hash, decode).Some?
    ensures Finalize(search, hash, decode, storageOk, a) == Finalize(search, hash, decode, storageOk, b)
  {
  }
}

=== FILE: presence.dfy ===
/** The live socket-to-room association that socket.io keeps for the chat
    servers (`socket.join`, `socket.leave`, `io.socketsLeave`,
    `io.to(room)`). A socket may sit in several rooms at once. */
module Presence {

  type SocketId = string
  type RoomId = string

  /** One socket attached to one room. */
  datatype Attachment = Attachment(socket: SocketId, room: RoomId)

  /** All current attachments. */
  type Live = set<Attachment>

  /** The sockets `io.to(room)` reaches. */
  function SocketsIn(live: Live, room: RoomId): (r: set<SocketId>)
    ensures forall s :: s in r <==> Attachment(s, room) in live
  {
    set a | a in live && a.room == room :: a.socket
  }

  /** The rooms a socket currently sits in. */
  function RoomsOf(live: Live, socket: SocketId): (r: set<RoomId>)
    ensures forall room :: room in r <==> Attachment(socket, room) in live
  {
    set a | a in live && a.socket == socket :: a.room
  }

  /** `socket.join(room)`: adds one attachment, leaving the socket's other
      rooms and every other room untouched. */
  function Attach(live: Live, socket: SocketId, room: RoomId): (r: Live)
    ensures SocketsIn(r, room) == SocketsIn(live, room) + {socket}
    ensures RoomsOf(r, socket) == RoomsOf(live, socket) + {room}
    ensures forall other :: other != room ==> SocketsIn(r, other) == SocketsIn(live, other)
  {
    live + {Attachment(socket, room)}
  }

  /** `socket.leave(room)`: removes one attachment, if present. */
  function Detach(live: Live, socket: SocketId, room: RoomId): (r: Live)
    ensures SocketsIn(r, room) == SocketsIn(live, room) - {socket}
    ensures RoomsOf(r, socket) == RoomsOf(live, socket) - {room}
    ensures forall other :: other != room ==> SocketsIn(r, other) == SocketsIn(live, other)
  {
    live - {Attachment(socket, room)}
  }

  /** `io.socketsLeave(room)`: every socket leaves `room` and keeps its other
      rooms. */
  function DetachAll(live: Live, room: RoomId): (r: Live)
    ensures SocketsIn(r, room) == {}
    ensures forall other :: other != room ==> SocketsIn(r, other) == SocketsIn(live, other)
    ensures forall s :: RoomsOf(r, s) == RoomsOf(live, s) - {room}
  {
    set a | a in live && a.room != room
  }

  /** What socket.io does when a socket closes, before its `disconnect`
      listeners run: the socket leaves every room it is in. */
  function DetachSocket(live: Live, socket: SocketId): (r: Live)
    ensures RoomsOf(r, socket) == {}
    ensures forall other :: other != socket ==> RoomsOf(r, other) == RoomsOf(live, other)
    ensures forall room :: SocketsIn(r, room) == SocketsIn(live, room) - {socket}
  {
    set a | a in live && a.socket != socket
  }

  /** Who an emission is addressed to: `socket.emit` reaches the sender,
      `io.to(room).emit` every socket in the room. */
  datatype Audience = ToSender | ToRoom(room: RoomId)

  /** An emitted event with its audience and the sockets it reached,
      resolved at the moment of emission. */
  datatype Emission<E> = Emission(audience: Audience, recipients: set<SocketId>, event: E)

  function ToSocket<E>(socket: SocketId, e: E): Emission<E>
  {
    Emission(ToSender, {socket}, e)
  }

  function ToRoomOf<E>(live: Live, room: RoomId, e: E): Emission<E>
  {
    Emission(ToRoom(room), SocketsIn(live, room), e)
  }
}

=== FILE: quality_indicator.dfy ===
/** The signal-strength badge (`frontend/src/components/ConnectionQualityIndicator.tsx`):
    the per-grade configuration table, the signal drawn, the bar heights,
    the metric formatter and the tooltip rows, and the toast fired when the
    grade changes.
    The grade arrives as a string, so values outside the five names occur. */
module QualityIndicator {
  import opened Wrappers
  import CQ = ConnectionQuality

  datatype Icon = SignalHigh | SignalMedium | SignalLow | WifiOff

  /** `getQualityConfig()`'s result. */
  datatype Config = Config(icon: Icon, barColor: string, textColor: string, labelText: string, bars: seq<bool>)

  datatype ToastKind = ErrorToast | WarningToast | PlainToast | SuccessToast

  datatype Toast = Toast(kind: ToastKind, message: string, durationMs: nat)

  /** `formatMetric`: "N/A", or a number rendered to two decimals below 1,
      or rounded otherwise (number rendering is not modelled). */
  datatype MetricText = NotAvailable | Fixed2(value: real, unit: string) | Rounded(value: real, unit: string)

  const BarHeights: seq<nat> := [6, 9, 12, 15]

  /** The wire name of a grade. */
  function Name(q: CQ.Quality): string
  {
    match q
    case Excellent => "excellent"
    case Good => "good"
    case Fair => "fair"
    case Poor => "poor"
    case Unknown => "unknown"
  }

  /** The number of lit bars. */
  function LitCount(bars: seq<bool>): (n: nat)
    ensures n <= |bars|
    decreases |bars|
  {
    if bars == [] then 0 else (if bars[0] then 1 else 0) + LitCount(bars[1..])
  }

  /** Lit bars come first: once a bar is dark, so are all later ones. */
  ghost predicate LitPrefix(bars: seq<bool>)
  {
    forall i, j :: 0 <= j < i < |bars| && bars[i] ==> bars[j]
  }

  /** `total` bars of which the first `n` are lit. */
  function LitBars(n: nat, total: nat): (bars: seq<bool>)
    requires n <= total
    ensures |bars| == total && LitPrefix(bars) && LitCount(bars) == n
    ensures forall i :: 0 <= i < total ==> (bars[i] <==> i < n)
    decreases total
  {
    if total == 0 then []
    else
      var rest := if n == 0 then LitBars(0, total - 1) else LitBars(n - 1, total - 1);
      var bars := [n > 0] + rest;
      assert bars[1..] == rest;
      bars
  }

  /** `getQualityConfig`. */
  function QualityConfig(quality: string): (c: Config)
    ensures |c.bars| == 4 && LitPrefix(c.bars)
    ensures quality == "excellent" ==> c.labelText == "Excellent" && LitCount(c.bars) == 4
    ensures quality == "good" ==> c.labelText == "Good" && LitCount(c.bars) == 3
    ensures quality == "fair" ==> c.labelText == "Fair" && LitCount(c.bars) == 2
    ensures quality == "poor" ==> c.labelText == "Poor" && LitCount(c.bars) == 1
    ensures quality !in {"excellent", "good", "fair", "poor"} ==> c.labelText == "Unknown" && LitCount(c.bars) == 0 && c.icon == WifiOff
  {
    if quality == "excellent" then Config(SignalHigh, "bg-green-500", "text-green-500", "Excellent", LitBars(4, 4))
    else if quality == "good" then Config(SignalHigh, "bg-green-400", "text-green-400", "Good", LitBars(3, 4))
    else if quality == "fair" then Config(SignalMedium, "bg-yellow-500", "text-yellow-500", "Fair", LitBars(2, 4))
    else if quality == "poor" then Config(SignalLow, "bg-red-500", "text-red-500", "Poor", LitBars(1, 4))
    else Config(WifiOff, "bg-gray-500", "text-gray-400", "Unknown", LitBars(0, 4))
  }

  /** The badge lights exactly as many bars as the grade's rank, so a better
      grade never shows fewer bars. */
  lemma BarsFollowRank(q: CQ.Quality)
    ensures LitCount(QualityConfig(Name(q)).bars) == CQ.Rank(q)
  {
  }

  /** A better grade lights at least as many bars. */
  lemma BarsMonotone(p: CQ.Quality, q: CQ.Quality)
    requires CQ.Rank(p) <= CQ.Rank(q)
    ensures LitCount(QualityConfig(Name(p)).bars) <= LitCount(QualityConfig(Name(q)).bars)
  {
    BarsFollowRank(p);
    BarsFollowRank(q);
  }

  /** What the badge draws in place of the bars. */
  datatype Signal = IconOnly(icon: Icon) | BarRow(lit: seq<bool>)

  /** The badge's signal: the configured icon for the exact value "unknown",
      otherwise the configured row of bars. */
  function SignalView(quality: string): (s: Signal)
    ensures s.IconOnly? <==> quality == "unknown"
    ensures s.IconOnly? ==> s.icon == WifiOff
    ensures s.BarRow? ==> |s.lit| == 4 && LitPrefix(s.lit)
  {
    var c := QualityConfig(quality);
    if quality == "unknown" then IconOnly(c.icon) else BarRow(c.bars)
  }

  /** Each grade shows bars lit up to its rank, except "unknown", which
      shows the off icon alone. */
  lemma SignalFollowsGrade(q: CQ.Quality)
    ensures q == CQ.Unknown <==> SignalView(Name(q)) == IconOnly(WifiOff)
    ensures q != CQ.Unknown ==> SignalView(Name(q)).BarRow? && LitCount(SignalView(Name(q)).lit) == CQ.Rank(q)
  {
    BarsFollowRank(q);
  }

  /** A value outside the five grade names is not drawn like "unknown": it
      shows four dark bars. */
  lemma UnrecognisedGradeShowsDarkBars(quality: string)
    requires quality !in {"excellent", "good", "fair", "poor", "unknown"}
    ensures SignalView(quality) == BarRow([false, false, false, false])
  {
    var lit := SignalView(quality).lit;
    assert forall i :: 0 <= i < 4 ==> !lit[i];
  }

  /** The heights of bars 0..3, in pixels, grow from left to right. */
  lemma BarHeightsIncrease()
    ensures |BarHeights| == 4
    ensures forall i, j :: 0 <= i < j < |BarHeights| ==> BarHeights[i] < BarHeights[j]
  {
  }

  /** `formatMetric`. */
  function FormatMetric(value: Option<real>, unit: string): (t: MetricText)
    ensures value.None? <==> t == NotAvailable
    ensures value.Some? && value.value < 1.0 ==> t == Fixed2(value.value, unit)
    ensures value.Some? && value.value >= 1.0 ==> t == Rounded(value.value, unit)
  {
    if value.None? then NotAvailable
    else if value.value < 1.0 then Fixed2(value.value, unit)
    else Rounded(value.value, unit)
  }

  /** The value column of a tooltip row. */
  datatype RowValue = Metric(text: MetricText) | Dimensions(width: real, height: real)

  datatype Row = Row(caption: string, value: RowValue)

  /** One row for a metric the stats carry, none for a missing one. */
  function MetricRow(caption: string, value: Option<real>, unit: string): seq<Row>
  {
    if value.Some? then [Row(caption, Metric(FormatMetric(value, unit)))] else []
  }

  /** How many of the six tooltip metrics the stats carry. */
  function PresentMetrics(st: CQ.Stats): nat
  {
    (if st.rtt.Some? then 1 else 0) + (if st.packetLoss.Some? then 1 else 0) +
    (if st.jitter.Some? then 1 else 0) + (if st.bandwidth.Some? then 1 else 0) +
    (if st.videoResolution.Some? then 1 else 0) + (if st.videoFrameRate.Some? then 1 else 0)
  }

  /** The rows of `tooltipContent` below its heading, or nothing without
      stats: latency, packet loss, jitter, bandwidth, resolution and frame
      rate, each only when present. */
  function Tooltip(stats: Option<CQ.Stats>): (t: Option<seq<Row>>)
    ensures t.None? <==> stats.None?
    ensures t.Some? ==> |t.value| == PresentMetrics(stats.value)
  {
    if stats.None? then None
    else
      var st := stats.value;
      var resolution :=
        if st.videoResolution.Some? then
          [Row("Resolution:", Dimensions(st.videoResolution.value.width, st.videoResolution.value.height))]
        else [];
      Some(MetricRow("Latency:", st.rtt, "ms") + MetricRow("Packet Loss:", st.packetLoss, "%") +
           MetricRow("Jitter:", st.jitter, "ms") + MetricRow("Bandwidth:", st.bandwidth, "kbps") +
           resolution + MetricRow("Frame Rate:", st.videoFrameRate, "fps"))
  }

  /** Every metric row is guarded by its metric's presence, so the tooltip
      never shows "N/A". */
  lemma TooltipNeverShowsNotAvailable(stats: CQ.Stats)
    ensures var rows := Tooltip(Some(stats)).value;
      forall i :: 0 <= i < |rows| ==> rows[i].value != Metric(NotAvailable)
  {
  }

  /** With a round-trip time present, the first row is the latency in ms. */
  lemma LatencyRowFirst(stats: CQ.Stats)
    requires stats.rtt.Some?
    ensures Tooltip(Some(stats)).value[0] == Row("Latency:", Metric(FormatMetric(stats.rtt, "ms")))
  {
  }

  /** The toast announcing a grade. */
  function ToastFor(quality: string): Toast
  {
    if quality == "poor" then Toast(ErrorToast, "Your connection is poor. Expect lag or interruptions.", 2500)
    else if quality == "fair" then Toast(WarningToast, "Your connection is fair. Performance may vary.", 2500)
    else if quality == "good" then Toast(PlainToast, "Your connection is good.", 2000)
    else if quality == "excellent" then Toast(SuccessToast, "Excellent connection!", 2000)
    else Toast(PlainToast, "Connection quality unknown.", 2000)
  }

  /** The effect run when `quality` changes: it remembers the value and
      toasts, unless the value equals the one last seen. */
  function OnQuality(prev: Option<string>, quality: string): (r: (Option<string>, Option<Toast>))
    ensures r.0 == Some(quality)
    ensures r.1.Some? <==> prev != Some(quality)
    ensures r.1.Some? ==> r.1.value == ToastFor(quality)
  {
    if prev == Some(quality) then (prev, None) else (Some(quality), Some(ToastFor(quality)))
  }

  /** Seeing the same grade twice in a row toasts at most once. */
  lemma RepeatedGradeToastsOnce(prev: Option<string>, quality: string)
    ensures OnQuality(OnQuality(prev, quality).0, quality).1.None?
  {
  }
}

=== FILE: room_controller.dfy ===
/** The REST room registry (`backend/src/controllers/roomController.ts`):
    `createRoom`, `listRooms`, `joinRoom` and `leaveRoom` over the room
    collection. The caller is the user id `protect` attached to the request;
    document ids are supplied by the store. */
module RoomController {
  import opened Wrappers
  import opened Store
  import opened RoomModel

  /** JSON bodies the handlers answer with. */
  datatype Body =
    | MessageBody(message: string)
    | RoomBody(id: RoomId, room: Room)
    | RoomList(rooms: Registry)
    | LeftBody(message: string, id: RoomId, room: Room)

  datatype Response = Response(status: nat, body: Body)

  /** The registry after a request, and the response sent. */
  datatype Outcome = Outcome(reg: Registry, response: Response)

  const NameRequired := "Room name is required"
  const NameTaken := "Room already exists"
  const NotFound := "Room not found"
  const ServerError := "Server error"
  const LeftMessage := "Left room successfully"

  /** Any room already holds `name` (`Room.findOne({ name })`). */
  predicate NameInUse(reg: Registry, name: string)
  {
    exists id :: id in reg && reg[id].name == name
  }

  /** `createRoom`. `name` is absent when the body has none; store accesses:
      0 = the name lookup, 1 = saving the new document under `freshId`
      (an id already taken makes the save throw). */
  function CreateRoom(reg: Registry, caller: UserId, name: Option<string>, freshId: RoomId, now: int,
                      fault: StoreFault): (r: Outcome)
    // missing or empty name: 400, nothing created
    ensures name.None? || name == Some("") ==>
              r.reg == reg && r.response == Response(400, MessageBody(NameRequired))
    // a name held by any room: 400, nothing created
    ensures name.Some? && name.value != "" && !Throws(fault, 0) && NameInUse(reg, name.value) ==>
              r.reg == reg && r.response == Response(400, MessageBody(NameTaken))
    // success: one new room whose only member is the caller, answered with 201
    ensures r.response.status == 201 <==>
              name.Some? && name.value != "" && NoFaultBefore(fault, 2) && !NameInUse(reg, name.value) && freshId !in reg
    ensures r.response.status == 201 ==>
              && r.reg == reg[freshId := Room(name.value, [caller], now)]
              && r.response.body == RoomBody(freshId, Room(name.value, [caller], now))
    ensures r.response.status != 201 ==> r.reg == reg
    // a throwing lookup, or a save that throws or hits a taken id, answers 500
    ensures name.Some? && name.value != "" &&
            (Throws(fault, 0) || (!NameInUse(reg, name.value) && (Throws(fault, 1) || freshId in reg))) ==>
              r.response == Response(500, MessageBody(ServerError))
  {
    if name.None? || name.value == "" then
      Outcome(reg, Response(400, MessageBody(NameRequired)))
    else if Throws(fault, 0) then
      Outcome(reg, Response(500, MessageBody(ServerError)))
    else if NameInUse(reg, name.value) then
      Outcome(reg, Response(400, MessageBody(NameTaken)))
    else if Throws(fault, 1) || freshId in reg then
      Outcome(reg, Response(500, MessageBody(ServerError)))
    else
      var room := Room(name.value, [caller], now);
      Outcome(reg[freshId := room], Response(201, RoomBody(freshId, room)))
  }

  /** `listRooms`: read-only, answers with every room. Store access 0 = the
      query. */
  function ListRooms(reg: Registry, fault: StoreFault): (r: Outcome)
    ensures r.reg == reg
    ensures !Throws(fault, 0) ==> r.response.status == 200 && r.response.body.RoomList? && r.response.body.rooms.Keys == reg.Keys
    ensures !Throws(fault, 0) ==> forall id :: id in reg ==> r.response.body.rooms[id] == reg[id]
    ensures Throws(fault, 0) ==> r.response == Response(500, MessageBody(ServerError))
  {
    if Throws(fault, 0) then Outcome(reg, Response(500, MessageBody(ServerError)))
    else Outcome(reg, Response(200, RoomList(reg)))
  }

  /** `joinRoom`. Store accesses: 0 = the lookup by id (which also throws
      for a room id that is not a document id), 1 = saving the appended
      member (only when the caller was absent). */
  function JoinRoom(reg: Registry, caller: UserId, roomId: RoomId, fault: StoreFault): (r: Outcome)
    ensures r.reg.Keys == reg.Keys
    ensures forall id :: id in reg && id != roomId ==> r.reg[id] == reg[id]
    ensures roomId !in reg && !ByIdThrows(fault, 0, roomId) ==> r.reg == reg && r.response == Response(404, MessageBody(NotFound))
    ensures !IsObjectId(roomId) ==> r.reg == reg && r.response == Response(500, MessageBody(ServerError))
    // a throwing lookup, or a throwing save of an appended caller, answers 500 and saves nothing
    ensures ByIdThrows(fault, 0, roomId) || (roomId in reg && caller !in reg[roomId].members && Throws(fault, 1)) ==>
              r.reg == reg && r.response == Response(500, MessageBody(ServerError))
    ensures roomId in reg ==> r.reg[roomId].name == reg[roomId].name
    // the caller is appended only when absent, so no duplicate appears
    ensures roomId in reg && caller in reg[roomId].members ==> r.reg == reg
    // a caller already present never reaches the save: 200 whatever access 1 would do
    ensures roomId in reg && !ByIdThrows(fault, 0, roomId) && caller in reg[roomId].members ==>
              r.response == Response(200, RoomBody(roomId, reg[roomId]))
    ensures roomId in reg && IsObjectId(roomId) && NoFaultBefore(fault, 2) ==>
              && caller in r.reg[roomId].members
              && r.response == Response(200, RoomBody(roomId, r.reg[roomId]))
              && r.reg[roomId].members == (if caller in reg[roomId].members then reg[roomId].members
                                           else reg[roomId].members + [caller])
  {
    if ByIdThrows(fault, 0, roomId) then Outcome(reg, Response(500, MessageBody(ServerError)))
    else if roomId !in reg then Outcome(reg, Response(404, MessageBody(NotFound)))
    else
      var room := reg[roomId];
      if caller in room.members then Outcome(reg, Response(200, RoomBody(roomId, room)))
      else if Throws(fault, 1) then Outcome(reg, Response(500, MessageBody(ServerError)))
      else
        var room' := room.(members := room.members + [caller]);
        Outcome(reg[roomId := room'], Response(200, RoomBody(roomId, room')))
  }

  /** Joining twice is the same as joining once. */
  lemma JoinIdempotent(reg: Registry, caller: UserId, roomId: RoomId)
    ensures var once := JoinRoom(reg, caller, roomId, Healthy);
      JoinRoom(once.reg, caller, roomId, Healthy) == once
  {
  }

  /** `leaveRoom`. Store accesses: 0 = the lookup by id (which also throws
      for a room id that is not a document id), 1 = saving the filtered
      members. The room is kept even when nobody is left in it. */
  function LeaveRoom(reg: Registry, caller: UserId, roomId: RoomId, fault: StoreFault): (r: Outcome)
    ensures r.reg.Keys == reg.Keys
    ensures forall id :: id in reg && id != roomId ==> r.reg[id] == reg[id]
    ensures roomId !in reg && !ByIdThrows(fault, 0, roomId) ==> r.reg == reg && r.response == Response(404, MessageBody(NotFound))
    ensures roomId in reg && IsObjectId(roomId) && NoFaultBefore(fault, 2) ==>
              && r.reg[roomId] == reg[roomId].(members := Without(reg[roomId].members, caller))
              && r.response == Response(200, LeftBody(LeftMessage, roomId, r.reg[roomId]))
    ensures ByIdThrows(fault, 0, roomId) || Throws(fault, 1) ==> r.reg == reg
    ensures ByIdThrows(fault, 0, roomId) || (roomId in reg && Throws(fault, 1)) ==>
              r.response == Response(500, MessageBody(ServerError))
  {
    if ByIdThrows(fault, 0, roomId) then Outcome(reg, Response(500, MessageBody(ServerError)))
    else if roomId !in reg then Outcome(reg, Response(404, MessageBody(NotFound)))
    else if Throws(fault, 1) then Outcome(reg, Response(500, MessageBody(ServerError)))
    else
      var room := reg[roomId].(members := Without(reg[roomId].members, caller));
      Outcome(reg[roomId := room], Response(200, LeftBody(LeftMessage, roomId, room)))
  }

  /** The last member leaving over REST leaves an empty room in place. */
  lemma LeaveNeverDeletes(reg: Registry, caller: UserId, roomId: RoomId)
    requires roomId in reg && reg[roomId].members == [caller]
    ensures var r := LeaveRoom(reg, caller, roomId, Healthy);
      roomId in r.reg && (IsObjectId(roomId) ==> r.reg[roomId].members == [])
  {
  }

  /** Creating a room keeps room names unique and member lists free of
      duplicates. */
  lemma CreateKeepsInvariants(reg: Registry, caller: UserId, name: Option<string>, freshId: RoomId, now: int,
                              fault: StoreFault)
    requires UniqueNames(reg)
    requires forall id :: id in reg ==> NoDuplicates(reg[id].members)
    ensures var c := CreateRoom(reg, caller, name, freshId, now, fault).reg;
      UniqueNames(c) && forall id :: id in c ==> NoDuplicates(c[id].members)
  {
    var c := CreateRoom(reg, caller, name, freshId, now, fault).reg;
    if c != reg {
      var n := name.value;
      assert c == reg[freshId := Room(n, [caller], now)];
      assert forall id :: id in reg ==> reg[id].name != n;
    }
  }

  /** Joining keeps room names unique and member lists free of duplicates. */
  lemma JoinKeepsInvariants(reg: Registry, caller: UserId, roomId: RoomId, fault: StoreFault)
    requires UniqueNames(reg)
    requires forall id :: id in reg ==> NoDuplicates(reg[id].members)
    ensures var j := JoinRoom(reg, caller, roomId, fault).reg;
      UniqueNames(j) && forall id :: id in j ==> NoDuplicates(j[id].members)
  {
    var j := JoinRoom(reg, caller, roomId, fault).reg;
    if j != reg {
      var ms := reg[roomId].members;
      assert j[roomId].members == ms + [caller];
      forall x, y | 0 <= x < y < |ms + [caller]| ensures (ms + [caller])[x] != (ms + [caller])[y] {
        if y == |ms| {
          assert (ms + [caller])[x] == ms[x];
        }
      }
      forall a, b | a in j && b in j && j[a].name == j[b].name ensures a == b {
        assert j[a].name == reg[a].name && j[b].name == reg[b].name;
      }
    }
  }

  /** Leaving keeps room names unique and member lists free of duplicates. */
  lemma LeaveKeepsInvariants(reg: Registry, caller: UserId, roomId: RoomId, fault: StoreFault)
    requires UniqueNames(reg)
    requires forall id :: id in reg ==> NoDuplicates(reg[id].members)
    ensures var l := LeaveRoom(reg, caller, roomId, fault).reg;
      UniqueNames(l) && forall id :: id in l ==> NoDuplicates(l[id].members)
  {
    var l := LeaveRoom(reg, caller, roomId, fault).reg;
    if l != reg {
      WithoutKeepsNoDuplicates(reg[roomId].members, caller);
      forall a, b | a in l && b in l && l[a].name == l[b].name ensures a == b {
        assert l[a].name == reg[a].name && l[b].name == reg[b].name;
      }
    }
  }
}

=== FILE: room_model.dfy ===
/** The durable room record of `roomModel.ts` and the operations on its
    `members` list shared by the REST controller and the socket server. */
module RoomModel {

  type RoomId = string
  type UserId = string

  /** A room document: unique `name`, ordered `members` (user ids) and the
      creation time. */
  datatype Room = Room(name: string, members: seq<UserId>, createdAt: int)

  /** The room collection, keyed by document id. */
  type Registry = map<RoomId, Room>

  /** No two rooms share a name (the schema's `unique: true` on `name`). */
  ghost predicate UniqueNames(reg: Registry)
  {
    forall a, b :: a in reg && b in reg && reg[a].name == reg[b].name ==> a == b
  }

  /** Dropping rooms and renaming none keeps names unique. */
  lemma SubRegistryKeepsUniqueNames(reg: Registry, sub: Registry)
    requires UniqueNames(reg)
    requires forall id :: id in sub ==> id in reg && sub[id].name == reg[id].name
    ensures UniqueNames(sub)
  {
  }

  /** A list without repeated entries. */
  ghost predicate NoDuplicates(xs: seq<UserId>)
  {
    forall i, j :: 0 <= i < j < |xs| ==> xs[i] != xs[j]
  }

  /** `members.filter(m => m.toString() !== user)`: drops every occurrence of
      `user` and keeps every other entry as many times as it occurred. */
  function Without(members: seq<UserId>, user: UserId): (r: seq<UserId>)
    ensures user !in r
    ensures forall x :: x != user ==> multiset(r)[x] == multiset(members)[x]
    ensures user !in members ==> r == members
    ensures |r| <= |members|
    decreases |members|
  {
    if members == [] then []
    else
      var rest := Without(members[1..], user);
      assert members == [members[0]] + members[1..];
      if members[0] == user then rest else [members[0]] + rest
  }

  /** Filtering distributes over concatenation, so the members that remain
      keep their relative order. */
  lemma {:induction false} WithoutAppend(a: seq<UserId>, b: seq<UserId>, user: UserId)
    ensures Without(a + b, user) == Without(a, user) + Without(b, user)
    decreases |a|
  {
    if a != [] {
      assert (a + b)[1..] == a[1..] + b;
      WithoutAppend(a[1..], b, user);
    } else {
      assert a + b == b;
    }
  }

  /** Removing a user from around one of its occurrences joins the filtered
      neighbours. */
  lemma WithoutSplice(before: seq<UserId>, user: UserId, after: seq<UserId>)
    ensures Without(before + [user] + after, user) == Without(before, user) + Without(after, user)
  {
    WithoutAppend(before + [user], after, user);
    WithoutAppend(before, [user], user);
    assert Without([user], user) == [];
  }

  /** Filtering never introduces a duplicate. */
  lemma {:induction false} WithoutKeepsNoDuplicates(xs: seq<UserId>, user: UserId)
    requires NoDuplicates(xs)
    ensures NoDuplicates(Without(xs, user))
    decreases |xs|
  {
    if xs != [] {
      WithoutKeepsNoDuplicates(xs[1..], user);
      var rest := Without(xs[1..], user);
      if xs[0] != user {
        assert xs[0] !in xs[1..] by {
          forall k | 0 <= k < |xs[1..]| ensures xs[1..][k] != xs[0] {
            assert xs[1..][k] == xs[k + 1];
          }
        }
        assert multiset(rest)[xs[0]] == 0;
        assert xs[0] !in rest;
      }
    }
  }
}

=== FILE: session_cleanup.dfy ===
/** The expired-session sweep (`backend/src/utils/sessionCleanup.ts`):
    `Session.deleteMany({ expiresAt: { $lt: now } })`, reporting how many
    documents went. The clock reading `now` is an input. */
module SessionCleanup {
  import opened Wrappers

  /** A session document (`sessionModel.ts`); times in milliseconds. */
  datatype Session = Session(userId: string, token: string, expiresAt: int, createdAt: int)

  datatype Sweep = Sweep(remaining: seq<Session>, deletedCount: nat)

  /** The store error the sweep rethrows. */
  datatype StoreError = StoreError

  /** Strictly before `now`: a session expiring exactly at `now` is live. */
  predicate Expired(s: Session, now: int)
  {
    s.expiresAt < now
  }

  /** Number of sessions already expired at `now`. */
  function ExpiredCount(sessions: seq<Session>, now: int): (n: nat)
    ensures n <= |sessions|
    decreases |sessions|
  {
    if sessions == [] then 0
    else (if Expired(sessions[0], now) then 1 else 0) + ExpiredCount(sessions[1..], now)
  }

  /** The sessions a `$lt: now` delete leaves behind, in store order. */
  function Unexpired(sessions: seq<Session>, now: int): (r: seq<Session>)
    ensures forall k :: 0 <= k < |r| ==> r[k].expiresAt >= now
    ensures forall s :: s in sessions && !Expired(s, now) ==> s in r
    ensures multiset(r) <= multiset(sessions)
    ensures |r| + ExpiredCount(sessions, now) == |sessions|
    decreases |sessions|
  {
    if sessions == [] then []
    else
      var rest := Unexpired(sessions[1..], now);
      assert multiset(sessions) == multiset{sessions[0]} + multiset(sessions[1..]) by {
        assert sessions == [sessions[0]] + sessions[1..];
      }
      assert forall s :: s in sessions && s != sessions[0] ==> s in sessions[1..];
      if Expired(sessions[0], now) then rest else [sessions[0]] + rest
  }

  /** `cleanupExpiredSessions`: a store failure is rethrown with no count;
      otherwise every expired session goes and the count says how many. */
  function CleanupExpiredSessions(sessions: seq<Session>, now: int, storeOk: bool): (r: Result<Sweep, StoreError>)
    ensures !storeOk ==> r.Failure?
    ensures storeOk ==> r.Success?
    ensures r.Success? ==>
              && (forall k :: 0 <= k < |r.value.remaining| ==> r.value.remaining[k].expiresAt >= now)
              && (forall s :: s in sessions && s.expiresAt >= now ==> s in r.value.remaining)
              && multiset(r.value.remaining) <= multiset(sessions)
              && r.value.deletedCount == |sessions| - |r.value.remaining|
              && r.value.deletedCount == ExpiredCount(sessions, now)
  {
    if !storeOk then Failure(StoreError)
    else
      var kept := Unexpired(sessions, now);
      Success(Sweep(kept, |sessions| - |kept|))
  }

  /** A session that expires exactly at `now` survives the sweep. */
  lemma BoundaryIsKept(sessions: seq<Session>, now: int, s: Session)
    requires s in sessions && s.expiresAt == now
    ensures s in CleanupExpiredSessions(sessions, now, true).value.remaining
  {
  }

  /** Nothing expired at `now`: nothing is deleted and the count is 0. */
  lemma {:induction false} NothingExpiredDeletesNothing(sessions: seq<Session>, now: int)
    requires forall k :: 0 <= k < |sessions| ==> sessions[k].expiresAt >= now
    ensures Unexpired(sessions, now) == sessions
    ensures CleanupExpiredSessions(sessions, now, true).value.deletedCount == 0
    decreases |sessions|
  {
    if sessions != [] {
      assert !Expired(sessions[0], now);
      NothingExpiredDeletesNothing(sessions[1..], now);
      assert Unexpired(sessions, now) == [sessions[0]] + sessions[1..];
    }
  }

  /** A second sweep with the same `now` deletes nothing. */
  lemma CleanupIdempotent(sessions: seq<Session>, now: int)
    ensures var first := CleanupExpiredSessions(sessions, now, true).value;
      var second := CleanupExpiredSessions(first.remaining, now, true).value;
      second.deletedCount == 0 && second.remaining == first.remaining
  {
    NothingExpiredDeletesNothing(Unexpired(sessions, now), now);
  }
}

=== FILE: sign_forms.dfy ===
/** The sign-in and sign-up pages (`frontend/src/pages/Signin.tsx`,
    `frontend/src/pages/Signup.tsx`): the form checks run before submission,
    and what the page shows and stores for each server reply. The HTTP call
    and the registration call are inputs; the form library is modelled as
    "submit only when no field has an error". */
module SignForms {
  import opened Wrappers
  import opened Strings
  import opened FormValidation

  const ConfirmRequired := "Please confirm your password"
  const ConfirmMismatch := "Passwords do not match"
  const LoginFallback := "Login successful"
  const LoginFailed := "Login failed. Please try again."
  const RegistrationFailed := "Registration failed. Please try again."
  /** The fallback the page writes for a 429 reply naming no wait. */
  const WrittenDefault := 15
  /** The rate limiter's window, 15 minutes, in the seconds its replies use. */
  const LimiterWindowSeconds := 15 * 60

  datatype Toast = Toast(title: string, description: string, destructive: bool)

  // ---------------------------------------------------------------------
  // Sign-up
  // ---------------------------------------------------------------------

  datatype SignUpForm = SignUpForm(email: string, password: string, confirmPassword: string)

  datatype SignUpErrors = SignUpErrors(email: Option<string>, password: Option<string>, confirmPassword: Option<string>)

  /** `required` then `value === password` for the confirmation field. */
  function ConfirmError(confirm: string, password: string): (e: Option<string>)
    ensures e.None? <==> confirm != "" && confirm == password
    ensures confirm == "" ==> e == Some(ConfirmRequired)
    ensures confirm != "" && confirm != password ==> e == Some(ConfirmMismatch)
  {
    if confirm == "" then Some(ConfirmRequired)
    else if confirm != password then Some(ConfirmMismatch)
    else None
  }

  function SignUpCheck(f: SignUpForm): SignUpErrors
  {
    SignUpErrors(EmailError(f.email), PasswordError(f.password), ConfirmError(f.confirmPassword, f.password))
  }

  /** What `mockRegister` settled with. */
  datatype Registration = Registered(message: string) | RegisterFailed(error: Option<string>)

  datatype SignUpResult =
    | SignUpBlocked(errors: SignUpErrors)
    | SignUpDone(toast: Toast, resetForm: bool)

  /** Submitting the sign-up form: the registration runs only when every
      field passes; success clears the form, failure keeps it. */
  function SubmitSignUp(f: SignUpForm, reg: Registration): (r: SignUpResult)
    ensures r.SignUpDone? <==>
              MatchesEmailPattern(f.email) && |f.password| >= MinPasswordLength && f.confirmPassword == f.password
    ensures r.SignUpBlocked? ==> r.errors == SignUpCheck(f)
    ensures r.SignUpDone? ==> (r.resetForm <==> reg.Registered?) && (r.toast.destructive <==> reg.RegisterFailed?)
    ensures r.SignUpDone? && reg.RegisterFailed? ==>
              r.toast.description == (if Truthy(reg.error) then reg.error.value else RegistrationFailed)
    ensures r.SignUpDone? && reg.Registered? ==> r.toast.description == reg.message
  {
    var errors := SignUpCheck(f);
    if errors.email.Some? || errors.password.Some? || errors.confirmPassword.Some? then SignUpBlocked(errors)
    else match reg
      case Registered(message) => SignUpDone(Toast("Success!", message, false), true)
      case RegisterFailed(message) => SignUpDone(Toast("Error", OrElse(message, RegistrationFailed), true), false)
  }

  // ---------------------------------------------------------------------
  // Sign-in
  // ---------------------------------------------------------------------

  datatype SignInForm = SignInForm(email: string, password: string)

  datatype SignInErrors = SignInErrors(email: Option<string>, password: Option<string>)

  function SignInCheck(f: SignInForm): SignInErrors
  {
    SignInErrors(EmailError(f.email), PasswordError(f.password))
  }

  /** The JSON body of a reply; `retryAfter` in whole seconds, absent when
      not a number. */
  datatype ReplyData = ReplyData(message: Option<string>, accessToken: Option<string>, token: Option<string>, retryAfter: Option<int>)

  /** The sign-in request resolved, or was rejected with (or without) a
      response. */
  datatype SignInReply = Resolved(data: ReplyData) | Rejected(status: Option<int>, body: Option<ReplyData>)

  /** The toasts shown in order, the token left in storage, the route
      navigated to, and whether the form was cleared. */
  datatype SignInOutcome = SignInOutcome(toasts: seq<Toast>, stored: Option<string>, navigateTo: Option<string>,
                                         resetForm: bool)

  datatype SignInResult = SignInBlocked(errors: SignInErrors) | SignInDone(outcome: SignInOutcome)

  /** `Math.ceil(seconds / 60)`: the fewest whole minutes covering the wait. */
  function CeilMinutes(seconds: int): (m: int)
    ensures 60 * (m - 1) < seconds <= 60 * m
  {
    (seconds + 59) / 60
  }

  /** `data?.retryAfter || 15` as written: a missing or zero wait becomes
      15, which the page then reads as seconds. */
  function RetryAfterAsWritten(data: Option<ReplyData>): (s: int)
    ensures s != 0
    ensures data.Some? && data.value.retryAfter.Some? && data.value.retryAfter.value != 0 ==> s == data.value.retryAfter.value
    ensures data.None? || data.value.retryAfter.None? || data.value.retryAfter == Some(0) ==> s == WrittenDefault
  {
    if data.Some? && data.value.retryAfter.Some? && data.value.retryAfter.value != 0 then data.value.retryAfter.value
    else WrittenDefault
  }

  /** The wait with the fallback in the unit the rate limiter uses: a
      missing or zero wait stands for the limiter's whole window. */
  function RetryAfter(data: Option<ReplyData>): (s: int)
    ensures s != 0
    ensures data.Some? && data.value.retryAfter.Some? && data.value.retryAfter.value != 0 ==> s == data.value.retryAfter.value
    ensures data.None? || data.value.retryAfter.None? || data.value.retryAfter == Some(0) ==> s == LimiterWindowSeconds
  {
    if data.Some? && data.value.retryAfter.Some? && data.value.retryAfter.value != 0 then data.value.retryAfter.value
    else LimiterWindowSeconds
  }

  function TooManyMessage(minutes: int): string
  {
    "Too many login attempts. Please try again after " + IntToString(minutes) + " minute" + (if minutes > 1 then "s" else "") + "."
  }

  /** `data.accessToken || data.token || null`. */
  function TokenOf(data: ReplyData): (t: Option<string>)
    ensures t.Some? ==> t.value != ""
    ensures t.None? <==> !Truthy(data.accessToken) && !Truthy(data.token)
    ensures Truthy(data.accessToken) ==> t == data.accessToken
    ensures !Truthy(data.accessToken) && Truthy(data.token) ==> t == data.token
  {
    if Truthy(data.accessToken) then data.accessToken
    else if Truthy(data.token) then data.token
    else None
  }

  function WelcomeToast(data: ReplyData): Toast
  {
    Toast("Welcome back!", OrElse(data.message, LoginFallback), false)
  }

  /** Submitting the sign-in form. `storageOk` is whether
      `localStorage.setItem` succeeds; when it throws, the welcome toast has
      already been shown and the catch block adds the generic failure toast,
      since the error carries no response. */
  function SubmitSignIn(f: SignInForm, reply: SignInReply, storageOk: bool): (r: SignInResult)
    ensures r.SignInDone? <==> MatchesEmailPattern(f.email) && |f.password| >= MinPasswordLength
    ensures r.SignInBlocked? ==> r.errors == SignInCheck(f)
    // the page leaves only after the token, if any, is stored
    ensures r.SignInDone? ==>
              (r.outcome.navigateTo.Some? <==> reply.Resolved? && (TokenOf(reply.data).None? || storageOk))
    // success: welcome, store a non-empty token if there is one, clear the form, go home
    ensures r.SignInDone? && reply.Resolved? && (TokenOf(reply.data).None? || storageOk) ==>
              && r.outcome == SignInOutcome([WelcomeToast(reply.data)], TokenOf(reply.data), Some("/"), true)
    // a token the storage refuses: welcome, then the generic failure, and the page stays
    ensures r.SignInDone? && reply.Resolved? && TokenOf(reply.data).Some? && !storageOk ==>
              r.outcome == SignInOutcome([WelcomeToast(reply.data), Toast("Error", LoginFailed, true)], None, None, false)
    // failure: one destructive toast, nothing stored, the form kept
    ensures r.SignInDone? && reply.Rejected? ==>
              && |r.outcome.toasts| == 1 && r.outcome.toasts[0].destructive
              && r.outcome.stored.None? && r.outcome.navigateTo.None? && !r.outcome.resetForm
    ensures r.SignInDone? && reply.Rejected? && reply.status == Some(429) ==>
              r.outcome.toasts[0] == Toast("Too Many Attempts", TooManyMessage(CeilMinutes(RetryAfterAsWritten(reply.body))), true)
    ensures r.SignInDone? && reply.Rejected? && reply.status != Some(429) ==>
              r.outcome.toasts[0].description ==
                (if reply.body.Some? && Truthy(reply.body.value.message) then reply.body.value.message.value else LoginFailed)
  {
    var errors := SignInCheck(f);
    if errors.email.Some? || errors.password.Some? then SignInBlocked(errors)
    else match reply
      case Resolved(data) =>
        var token := TokenOf(data);
        if token.Some? && !storageOk then
          SignInDone(SignInOutcome([WelcomeToast(data), Toast("Error", LoginFailed, true)], None, None, false))
        else
          SignInDone(SignInOutcome([WelcomeToast(data)], token, Some("/"), true))
      case Rejected(status, data) =>
        var toast :=
          if status == Some(429) then Toast("Too Many Attempts", TooManyMessage(CeilMinutes(RetryAfterAsWritten(data))), true)
          else
            var message := if data.Some? then data.value.message else None;
            Toast("Error", OrElse(message, LoginFailed), true);
        SignInDone(SignInOutcome([toast], None, None, false))
  }

  /** The plural form appears exactly when the wait exceeds one minute. */
  lemma PluralIffOverAMinute(seconds: int)
    ensures CeilMinutes(seconds) > 1 <==> seconds > 60
  {
  }

  /** As written, a 429 reply naming no wait asks for one minute, although
      the limiter locks sign-in for fifteen. */
  lemma DefaultWaitIsOneMinute(f: SignInForm, data: Option<ReplyData>, storageOk: bool)
    requires MatchesEmailPattern(f.email) && |f.password| >= MinPasswordLength
    requires data.None? || data.value.retryAfter.None?
    ensures SubmitSignIn(f, Rejected(Some(429), data), storageOk).outcome.toasts[0].description ==
              "Too many login attempts. Please try again after 1 minute."
    ensures CeilMinutes(RetryAfterAsWritten(data)) < CeilMinutes(LimiterWindowSeconds)
  {
    var r := SubmitSignIn(f, Rejected(Some(429), data), storageOk);
    assert r.SignInDone?;
    assert r.outcome.toasts[0].description == TooManyMessage(CeilMinutes(RetryAfterAsWritten(data)));
    assert CeilMinutes(RetryAfterAsWritten(data)) == 1;
    OneMinuteMessage();
  }

  lemma OneMinuteMessage()
    ensures TooManyMessage(1) == "Too many login attempts. Please try again after 1 minute."
  {
    assert IntToString(1) == [DigitChar(1)] == "1";
  }

  /** With the fallback in seconds, a 429 reply naming no wait asks for the
      limiter's fifteen minutes. */
  lemma DefaultWaitIsTheWindow(data: Option<ReplyData>)
    requires data.None? || data.value.retryAfter.None?
    ensures CeilMinutes(RetryAfter(data)) == 15
    ensures TooManyMessage(CeilMinutes(RetryAfter(data))) ==
              "Too many login attempts. Please try again after 15 minutes."
  {
    assert NatToString(1) == [DigitChar(1)];
    assert IntToString(15) == NatToString(1) + [DigitChar(5)] == "15";
  }

  /** The field checks are those of the shared rules: sign-in and sign-up
      report the same errors for the email and password fields. */
  lemma SameFieldRules(email: string, password: string, confirm: string)
    ensures SignInCheck(SignInForm(email, password)).email == SignUpCheck(SignUpForm(email, password, confirm)).email
    ensures SignInCheck(SignInForm(email, password)).password == SignUpCheck(SignUpForm(email, password, confirm)).password
  {
  }
}

=== FILE: socket_server.dfy ===
/** The socket handlers of the TypeScript server (`backend/src/server.ts`):
    `join-room`, `chat-message`, `leave-room`, `end-room` and `disconnect`,
    each one atomic transition from a state to a new state plus the events
    it emits, in emission order.

    Each handler's awaits are collapsed into one step. The read-modify-write
    of `members` in `leave-room` (read the room, filter, save) can lose an
    update when two leaves of the same room interleave at their awaits; the
    model does not represent that interleaving. */
module SocketServer {
  import opened Presence
  import opened Store
  import opened RoomModel
  import opened ChatHistory

  /** Rooms in the store, the chat log, and socket.io's live attachments. */
  datatype State = State(rooms: Registry, log: seq<ChatMessage>, live: Live)

  /** Why a `room-ended` event was sent. */
  datatype EndReason = EmptyRoom | EndedBy(host: string)

  /** Server-to-client events. */
  datatype Event =
    | UserJoined(userName: string, roomId: RoomId)
    | HistoryEvent(messages: seq<ChatMessage>)
    | UpdateMembers(members: seq<UserId>)
    | ChatEvent(roomId: RoomId, user: string, text: string, time: int)
    | UserLeft(userName: string, roomId: RoomId)
    | RoomEnded(roomId: RoomId, reason: EndReason)
    | ErrorEvent(message: string)

  datatype Step = Step(state: State, out: seq<Emission<Event>>)

  const HistoryFailure := "Failed to fetch chat history."
  const SendFailure := "Failed to send message."

  /** The durable member list of a room, or `[]` when it does not exist
      (`room?.members || []`). */
  function MembersOrEmpty(rooms: Registry, room: RoomId): seq<UserId>
  {
    if room in rooms then rooms[room].members else []
  }

  // -----------------------------------------------------------------------
  // join-room
  // -----------------------------------------------------------------------

  /** `join-room`. Store accesses: 0 = chat history query, 1 = room lookup
      by id, which also throws for a room id that is not a document id. */
  function JoinRoom(st: State, socket: SocketId, roomId: RoomId, userName: string, fault: StoreFault): (r: Step)
    // only the live association changes: the socket is now in the room
    ensures r.state.rooms == st.rooms && r.state.log == st.log
    ensures SocketsIn(r.state.live, roomId) == SocketsIn(st.live, roomId) + {socket}
    ensures forall other :: other != roomId ==> SocketsIn(r.state.live, other) == SocketsIn(st.live, other)
    // the first event is user-joined to the whole room, joiner included
    ensures |r.out| >= 2
    ensures r.out[0].audience == ToRoom(roomId) && r.out[0].event == UserJoined(userName, roomId)
    ensures socket in r.out[0].recipients && r.out[0].recipients == SocketsIn(r.state.live, roomId)
    // a failed store access ends the handler with an error to the joiner only
    ensures Throws(fault, 0) ==> r.out[1] == ToSocket(socket, ErrorEvent(HistoryFailure)) && |r.out| == 2
    ensures !Throws(fault, 0) ==>
              |r.out| == 3
              && r.out[1] == ToSocket(socket, HistoryEvent(RecentHistory(st.log, roomId)))
    ensures !Throws(fault, 0) && ByIdThrows(fault, 1, roomId) ==> r.out[2] == ToSocket(socket, ErrorEvent(HistoryFailure))
    // otherwise the room's durable members go to the whole room ([] if no room)
    ensures !Throws(fault, 0) && !ByIdThrows(fault, 1, roomId) ==>
              r.out[2].audience == ToRoom(roomId)
              && r.out[2].recipients == SocketsIn(r.state.live, roomId)
              && r.out[2].event == UpdateMembers(if roomId in st.rooms then st.rooms[roomId].members else [])
  {
    var live := Attach(st.live, socket, roomId);
    var st' := st.(live := live);
    var joined := ToRoomOf(live, roomId, UserJoined(userName, roomId));
    assert socket in joined.recipients;
    if Throws(fault, 0) then
      Step(st', [joined, ToSocket(socket, ErrorEvent(HistoryFailure))])
    else
      var history := ToSocket(socket, HistoryEvent(RecentHistory(st.log, roomId)));
      if ByIdThrows(fault, 1, roomId) then
        Step(st', [joined, history, ToSocket(socket, ErrorEvent(HistoryFailure))])
      else
        Step(st', [joined, history, ToRoomOf(live, roomId, UpdateMembers(MembersOrEmpty(st.rooms, roomId)))])
  }

  /** The history a joiner receives holds only that room's messages, at most
      50 of them, oldest first, and none newer than a message left out. */
  lemma JoinHistoryIsRecentWindow(st: State, socket: SocketId, roomId: RoomId, userName: string)
    ensures var h := JoinRoom(st, socket, roomId, userName, Healthy).out[1].event.messages;
      && |h| <= HistoryLimit
      && (forall m :: m in h ==> m in st.log && m.roomId == roomId)
      && SortedByTime(h)
      && (forall m, k :: m in multiset(InRoom(st.log, roomId)) - multiset(h) && 0 <= k < |h|
            ==> m.timestamp <= h[k].timestamp)
  {
    RecentHistoryIsWindow(st.log, roomId);
  }

  /** The chat widget's default room "global" is not a document id, so the
      room lookup of `join-room` always throws there: the joiner gets the
      history and then the error, and no member list is sent. */
  lemma DefaultRoomJoinEndsInError(st: State, socket: SocketId, userName: string)
    ensures var r := JoinRoom(st, socket, "global", userName, Healthy);
      |r.out| == 3 && r.out[2] == ToSocket(socket, ErrorEvent(HistoryFailure))
  {
    assert !IsHexDigit("global"[1]);
  }

  // -----------------------------------------------------------------------
  // chat-message
  // -----------------------------------------------------------------------

  /** The chat message schema marks `roomId`, `user` and `text` as
      required, and the store's validation refuses an empty string there. */
  predicate Savable(roomId: RoomId, user: string, text: string)
  {
    roomId != "" && user != "" && text != ""
  }

  /** `chat-message`. Store access 0 = saving the message, which fails
      validation when a required field is empty; `now` is the server clock
      (`new Date()`). */
  function ChatMessageHandler(st: State, socket: SocketId, roomId: RoomId, user: string, text: string,
                              now: int, fault: StoreFault): (r: Step)
    ensures r.state.rooms == st.rooms && r.state.live == st.live
    ensures |r.out| == 1
    // saved: exactly one message appended, then broadcast to the whole room
    ensures Savable(roomId, user, text) && !Throws(fault, 0) ==>
              && r.state.log == st.log + [ChatMessage(roomId, user, text, now)]
              && r.out[0].audience == ToRoom(roomId)
              && r.out[0].recipients == SocketsIn(st.live, roomId)
              && r.out[0].event == ChatEvent(roomId, user, text, now)
    // not saved: nothing stored, nothing broadcast, an error to the sender only
    ensures !Savable(roomId, user, text) || Throws(fault, 0) ==>
              && r.state.log == st.log
              && r.out[0].recipients == {socket}
              && r.out[0].event == ErrorEvent(SendFailure)
  {
    if !Savable(roomId, user, text) || Throws(fault, 0) then
      Step(st, [ToSocket(socket, ErrorEvent(SendFailure))])
    else
      var m := ChatMessage(roomId, user, text, now);
      Step(st.(log := st.log + [m]), [ToRoomOf(st.live, roomId, ChatEvent(roomId, user, text, now))])
  }

  /** The sender receives its own broadcast exactly when it has joined the
      room; the broadcast is not restricted to other sockets. A message with
      an empty field reaches the sender alone, as an error. */
  lemma SenderReceivesOwnMessage(st: State, socket: SocketId, roomId: RoomId, user: string, text: string, now: int)
    ensures var r := ChatMessageHandler(st, socket, roomId, user, text, now, Healthy);
      Savable(roomId, user, text) ==> (socket in r.out[0].recipients <==> roomId in RoomsOf(st.live, socket))
    ensures var r := ChatMessageHandler(st, socket, roomId, user, text, now, Healthy);
      !Savable(roomId, user, text) ==> r.out[0].recipients == {socket} && r.out[0].event.ErrorEvent?
  {
  }

  /** Round trip: a message saved in a room is the last entry of the history
      a later joiner of that room receives, when the clock has not run
      backwards; no other room's history changes. */
  lemma {:induction false} ChatThenJoinDeliversMessage(st: State, sender: SocketId, joiner: SocketId, roomId: RoomId,
                                                       other: RoomId, user: string, text: string, now: int, name: string)
    requires Savable(roomId, user, text)
    requires SortedByTime(st.log)
    requires forall k :: 0 <= k < |st.log| ==> st.log[k].timestamp <= now
    requires other != roomId
    ensures var st1 := ChatMessageHandler(st, sender, roomId, user, text, now, Healthy).state;
      var h := JoinRoom(st1, joiner, roomId, name, Healthy).out[1].event.messages;
      && |h| > 0 && h[|h| - 1] == ChatMessage(roomId, user, text, now)
      && JoinRoom(st1, joiner, other, name, Healthy).out[1].event.messages == RecentHistory(st.log, other)
  {
    var m := ChatMessage(roomId, user, text, now);
    var st1 := ChatMessageHandler(st, sender, roomId, user, text, now, Healthy).state;
    SavedMessageIsLogged(st, sender, roomId, user, text, now);
    JoinSendsHistory(st1, joiner, roomId, name);
    JoinSendsHistory(st1, joiner, other, name);
    LatestMessageEndsHistory(st.log, m);
    HistoryIsolation(st.log, m, other);
  }

  lemma SavedMessageIsLogged(st: State, sender: SocketId, roomId: RoomId, user: string, text: string, now: int)
    requires Savable(roomId, user, text)
    ensures ChatMessageHandler(st, sender, roomId, user, text, now, Healthy).state.log ==
              st.log + [ChatMessage(roomId, user, text, now)]
  {
  }

  lemma JoinSendsHistory(st: State, joiner: SocketId, roomId: RoomId, name: string)
    ensures JoinRoom(st, joiner, roomId, name, Healthy).out[1].event.messages == RecentHistory(st.log, roomId)
  {
  }

  // -----------------------------------------------------------------------
  // leave-room
  // -----------------------------------------------------------------------

  /** `leave-room`. Store accesses: 0 = room lookup by id (which also throws
      for a room id that is not a document id), 1 = saving the filtered
      members, 2 = re-reading the room, 3 = deleting the emptied room. Any
      failure is caught and logged; nothing is sent to the leaver. */
  function LeaveRoom(st: State, socket: SocketId, roomId: RoomId, userId: UserId, userName: string,
                     fault: StoreFault): (r: Step)
    ensures r.state.log == st.log
    // the leaver's socket is out of the room whatever happens
    ensures socket !in SocketsIn(r.state.live, roomId)
    ensures forall e :: e in r.out ==> socket !in e.recipients && e.audience == ToRoom(roomId)
    // the room is never created; other rooms are untouched
    ensures r.state.rooms.Keys <= st.rooms.Keys
    ensures forall id :: id in r.state.rooms ==> r.state.rooms[id].name == st.rooms[id].name
    ensures forall other :: other != roomId && other in st.rooms ==> other in r.state.rooms && r.state.rooms[other] == st.rooms[other]
    // a missing room: nothing emitted, nothing changed but the live set
    ensures roomId !in st.rooms ==> r.out == [] && r.state.rooms == st.rooms
    // lookup and save succeeded: every occurrence of the user is gone
    ensures roomId in st.rooms && !ByIdThrows(fault, 0, roomId) && !Throws(fault, 1) ==>
              && |r.out| >= 1
              && r.out[0].event == UserLeft(userName, roomId)
              && r.out[0].recipients == SocketsIn(st.live, roomId) - {socket}
              && (roomId in r.state.rooms ==>
                    r.state.rooms[roomId] == st.rooms[roomId].(members := Without(st.rooms[roomId].members, userId)))
    // a throwing lookup or save is caught before anything is sent or saved
    ensures ByIdThrows(fault, 0, roomId) || Throws(fault, 1) ==> r.out == [] && r.state.rooms == st.rooms
    // a throwing re-read: the filtered members are saved, only `user-left` is sent
    ensures roomId in st.rooms && !ByIdThrows(fault, 0, roomId) && !Throws(fault, 1) && Throws(fault, 2) ==>
              && |r.out| == 1
              && roomId in r.state.rooms
              && r.state.live == Detach(st.live, socket, roomId)
    // a throwing delete keeps the emptied room and detaches nobody else
    ensures roomId in st.rooms && !ByIdThrows(fault, 0, roomId) && NoFaultBefore(fault, 3) && Throws(fault, 3) ==>
              && |r.out| == 2
              && r.out[1].event == UpdateMembers(Without(st.rooms[roomId].members, userId))
              && roomId in r.state.rooms
              && r.state.live == Detach(st.live, socket, roomId)
    // an emptied room is deleted and every socket detached, unless the
    // store fails first
    ensures roomId in st.rooms && fault == Healthy && IsObjectId(roomId) ==>
              (roomId !in r.state.rooms <==> Without(st.rooms[roomId].members, userId) == [])
    ensures roomId in st.rooms && fault == Healthy && IsObjectId(roomId) && Without(st.rooms[roomId].members, userId) == [] ==>
              && SocketsIn(r.state.live, roomId) == {}
              && |r.out| == 3
              && r.out[2].event == RoomEnded(roomId, EmptyRoom)
  {
    var live := Detach(st.live, socket, roomId);
    if ByIdThrows(fault, 0, roomId) || roomId !in st.rooms then
      Step(st.(live := live), [])
    else
      var room := st.rooms[roomId];
      var members := Without(room.members, userId);
      if Throws(fault, 1) then
        Step(st.(live := live), [])
      else
        var rooms := st.rooms[roomId := room.(members := members)];
        var left := ToRoomOf(live, roomId, UserLeft(userName, roomId));
        if Throws(fault, 2) then
          Step(State(rooms, st.log, live), [left])
        else
          var update := ToRoomOf(live, roomId, UpdateMembers(members));
          if |members| > 0 || Throws(fault, 3) then
            Step(State(rooms, st.log, live), [left, update])
          else
            var ended := ToRoomOf(live, roomId, RoomEnded(roomId, EmptyRoom));
            Step(State(rooms - {roomId}, st.log, DetachAll(live, roomId)), [left, update, ended])
  }

  /** After a successful leave, `update-members` carries the filtered list:
      the leaver is gone and the others keep their order. */
  lemma LeaveUpdatesMembersInOrder(st: State, socket: SocketId, roomId: RoomId, userId: UserId, userName: string,
                                   before: seq<UserId>, after: seq<UserId>)
    requires roomId in st.rooms && IsObjectId(roomId) && st.rooms[roomId].members == before + [userId] + after
    ensures var r := LeaveRoom(st, socket, roomId, userId, userName, Healthy);
      && |r.out| >= 2
      && r.out[1].event == UpdateMembers(Without(before, userId) + Without(after, userId))
      && userId !in r.out[1].event.members
  {
    WithoutSplice(before, userId, after);
  }

  // -----------------------------------------------------------------------
  // end-room and disconnect
  // -----------------------------------------------------------------------

  /** `end-room`. Store access 0 = deleting the room by id, which also
      throws for a room id that is not a document id. The `host` field is
      only echoed in the event: nobody's identity is checked. */
  function EndRoom(st: State, roomId: RoomId, host: string, fault: StoreFault): (r: Step)
    ensures r.state.log == st.log
    ensures ByIdThrows(fault, 0, roomId) ==> r.state == st && r.out == []
    ensures !ByIdThrows(fault, 0, roomId) ==>
              && r.state.rooms == st.rooms - {roomId}
              && SocketsIn(r.state.live, roomId) == {}
              && (forall other :: other != roomId ==> SocketsIn(r.state.live, other) == SocketsIn(st.live, other))
              && r.out == [Emission(ToRoom(roomId), SocketsIn(st.live, roomId), RoomEnded(roomId, EndedBy(host)))]
  {
    if ByIdThrows(fault, 0, roomId) then Step(st, [])
    else
      var ended := ToRoomOf(st.live, roomId, RoomEnded(roomId, EndedBy(host)));
      Step(State(st.rooms - {roomId}, st.log, DetachAll(st.live, roomId)), [ended])
  }

  /** Whoever claims to be the host, the room ends the same way: the state
      reached does not depend on the claimed identity. */
  lemma EndRoomChecksNoHost(st: State, roomId: RoomId, host1: string, host2: string)
    ensures EndRoom(st, roomId, host1, Healthy).state == EndRoom(st, roomId, host2, Healthy).state
    ensures IsObjectId(roomId) ==> roomId !in EndRoom(st, roomId, host1, Healthy).state.rooms
    ensures !IsObjectId(roomId) ==> EndRoom(st, roomId, host1, Healthy).state == st
  {
  }

  /** A closing socket: socket.io takes it out of every room, then the
      `disconnect` listener only logs. No stored room or message changes,
      no other socket moves, and nothing is emitted. */
  function Disconnect(st: State, socket: SocketId): (r: Step)
    ensures r.out == []
    ensures RoomsOf(r.state.live, socket) == {}
    ensures forall other :: other != socket ==> RoomsOf(r.state.live, other) == RoomsOf(st.live, other)
    ensures r.state.rooms == st.rooms && r.state.log == st.log
  {
    Step(st.(live := DetachSocket(st.live, socket)), [])
  }

  /** After a disconnect the socket is reached by no later broadcast, in any
      room. */
  lemma DisconnectedSocketMissesBroadcasts(st: State, socket: SocketId, sender: SocketId, roomId: RoomId,
                                           user: string, text: string, now: int, fault: StoreFault)
    ensures var st1 := Disconnect(st, socket).state;
      forall e :: e in ChatMessageHandler(st1, sender, roomId, user, text, now, fault).out && e.audience.ToRoom? ==>
        socket !in e.recipients
  {
    var st1 := Disconnect(st, socket).state;
    assert socket !in SocketsIn(st1.live, roomId);
  }

  /** Every transition keeps room names unique. */
  lemma SocketHandlersKeepUniqueNames(st: State, socket: SocketId, roomId: RoomId, userId: UserId, name: string,
                                      now: int, fault: StoreFault)
    requires UniqueNames(st.rooms)
    ensures UniqueNames(JoinRoom(st, socket, roomId, name, fault).state.rooms)
    ensures UniqueNames(ChatMessageHandler(st, socket, roomId, userId, name, now, fault).state.rooms)
    ensures UniqueNames(LeaveRoom(st, socket, roomId, userId, name, fault).state.rooms)
    ensures UniqueNames(EndRoom(st, roomId, name, fault).state.rooms)
  {
    SubRegistryKeepsUniqueNames(st.rooms, LeaveRoom(st, socket, roomId, userId, name, fault).state.rooms);
  }
}

=== FILE: store.dfy ===
/** Failures of the document store (MongoDB) seen by a request or socket
    handler. Each handler performs its store accesses in a fixed order; a
    fault names the access that throws, and every earlier one succeeds. */
module Store {

  datatype StoreFault = Healthy | FailsAt(access: nat)

  /** The `k`-th store access (counting from 0) of the handler throws. */
  predicate Throws(fault: StoreFault, k: nat)
  {
    fault == FailsAt(k)
  }

  predicate IsHexDigit(c: char)
  {
    '0' <= c <= '9' || 'a' <= c <= 'f' || 'A' <= c <= 'F'
  }

  /** A string the store casts to a document id: 24 hexadecimal digits. */
  predicate IsObjectId(s: string)
  {
    |s| == 24 && forall i :: 0 <= i < |s| ==> IsHexDigit(s[i])
  }

  /** Access `k` finds a document by `id` (`findById`, `findByIdAndDelete`):
      it throws when the store fails, and also when `id` does not cast to a
      document id. */
  predicate ByIdThrows(fault: StoreFault, k: nat, id: string)
  {
    Throws(fault, k) || !IsObjectId(id)
  }

  /** None of the first `n` store accesses throws. */
  predicate NoFaultBefore(fault: StoreFault, n: nat)
  {
    fault.FailsAt? ==> fault.access >= n
  }
}

=== FILE: strings.dfy ===
/** String helpers shared by the model: JavaScript's notion of whitespace and
    `trim`, ASCII case folding, decimal digits and their rendering, and
    `split`/`join` on a separator. Strings are `seq<char>`. */
module Strings {
  import opened Wrappers

  // ---------------------------------------------------------------------
  // Truthiness of optional strings (the source's `a || b` on strings)
  // ---------------------------------------------------------------------

  /** A JavaScript string value is truthy iff it is present and non-empty. */
  predicate Truthy(o: Option<string>)
  {
    o.Some? && o.value != ""
  }

  /** `o || fallback` for an optional string. */
  function OrElse(o: Option<string>, fallback: string): string
  {
    if Truthy(o) then o.value else fallback
  }

  // ---------------------------------------------------------------------
  // Whitespace and trim
  // ---------------------------------------------------------------------

  /** The characters `String.prototype.trim` removes: the ECMAScript
      WhiteSpace and LineTerminator code points. */
  predicate IsJsSpace(c: char)
  {
    || c == ' ' || c == '\t' || c == '\n' || c == '\r'
    || c == '\U{000B}' || c == '\U{000C}' || c == '\U{00A0}' || c == '\U{1680}'
    || ('\U{2000}' <= c <= '\U{200A}')
    || c == '\U{2028}' || c == '\U{2029}' || c == '\U{202F}' || c == '\U{205F}'
    || c == '\U{3000}' || c == '\U{FEFF}'
  }

  predicate AllSpace(s: string)
  {
    forall i :: 0 <= i < |s| ==> IsJsSpace(s[i])
  }

  /** Drops leading whitespace. */
  function TrimStart(s: string): (r: string)
    ensures |r| <= |s| && r == s[|s| - |r|..]
    ensures AllSpace(s[..|s| - |r|])
    ensures r == [] || !IsJsSpace(r[0])
    decreases |s|
  {
    if |s| > 0 && IsJsSpace(s[0]) then
      var r := TrimStart(s[1..]);
      assert s[1..][|s| - 1 - |r|..] == s[|s| - |r|..];
      assert s[..|s| - |r|] == [s[0]] + s[1..][..|s| - 1 - |r|];
      r
    else s
  }

  /** Drops trailing whitespace. */
  function TrimEnd(s: string): (r: string)
    ensures |r| <= |s| && r == s[..|r|]
    ensures AllSpace(s[|r|..])
    ensures r == [] || !IsJsSpace(r[|r| - 1])
    decreases |s|
  {
    if |s| > 0 && IsJsSpace(s[|s| - 1]) then
      var r := TrimEnd(s[..|s| - 1]);
      assert s[..|s| - 1][..|r|] == s[..|r|];
      assert s[|r|..] == s[..|s| - 1][|r|..] + [s[|s| - 1]];
      r
    else s
  }

  /** `r` is `s` with the whitespace run `s[..i]` and a trailing whitespace
      run removed. */
  ghost predicate TrimmedAt(s: string, r: string, i: int)
  {
    && 0 <= i <= i + |r| <= |s|
    && r == s[i..i + |r|]
    && AllSpace(s[..i])
    && AllSpace(s[i + |r|..])
  }

  /** `String.prototype.trim`: removes whitespace at both ends and nothing
      else. */
  function Trim(s: string): (r: string)
    ensures exists i :: TrimmedAt(s, r, i)
    ensures r == [] || (!IsJsSpace(r[0]) && !IsJsSpace(r[|r| - 1]))
  {
    var a := TrimStart(s);
    var r := TrimEnd(a);
    TrimmedAtParts(s, a, r);
    r
  }

  /** Trimming the front and then the back trims `s` at the front's length. */
  lemma TrimmedAtParts(s: string, a: string, r: string)
    requires |a| <= |s| && a == s[|s| - |a|..] && AllSpace(s[..|s| - |a|])
    requires |r| <= |a| && r == a[..|r|] && AllSpace(a[|r|..])
    ensures TrimmedAt(s, r, |s| - |a|)
  {
    var i := |s| - |a|;
    assert s[i..i + |r|] == a[..|r|];
    var tail := s[i + |r|..];
    assert tail == a[|r|..];
  }

  /** A string trims to "" exactly when it consists of whitespace only. */
  lemma TrimEmptyIffAllSpace(s: string)
    ensures Trim(s) == [] <==> AllSpace(s)
  {
    var r := Trim(s);
    var i :| TrimmedAt(s, r, i);
    if r == [] {
      assert s == s[..i] + s[i..];
    } else {
      assert s[i] == r[0];
    }
  }

  /** Trimming is idempotent. */
  lemma TrimIdempotent(s: string)
    ensures Trim(Trim(s)) == Trim(s)
  {
    var r := Trim(s);
    var r2 := Trim(r);
    var j :| TrimmedAt(r, r2, j);
    if r != [] {
      assert IsJsSpace(r[..j + 1][j]) ==> j == 0;
    }
  }

  /** Leading whitespace before a non-space character is all `TrimStart`
      removes. */
  lemma {:induction false} TrimStartPadded(p: string, x: string)
    requires AllSpace(p) && x != [] && !IsJsSpace(x[0])
    ensures TrimStart(p + x) == x
    decreases |p|
  {
    if p == [] {
      assert p + x == x;
    } else {
      assert (p + x)[1..] == p[1..] + x;
      TrimStartPadded(p[1..], x);
    }
  }

  /** Trailing whitespace after a non-space character is all `TrimEnd`
      removes. */
  lemma {:induction false} TrimEndPadded(x: string, q: string)
    requires AllSpace(q) && x != [] && !IsJsSpace(x[|x| - 1])
    ensures TrimEnd(x + q) == x
    decreases |q|
  {
    if q == [] {
      assert x + q == x;
    } else {
      assert (x + q)[..|x + q| - 1] == x + q[..|q| - 1];
      TrimEndPadded(x, q[..|q| - 1]);
    }
  }

  /** Trimming a padded word gives back the word. */
  lemma TrimPadded(p: string, x: string, q: string)
    requires AllSpace(p) && AllSpace(q)
    requires x != [] && !IsJsSpace(x[0]) && !IsJsSpace(x[|x| - 1])
    ensures Trim(p + x + q) == x
  {
    assert p + x + q == p + (x + q);
    TrimStartPadded(p, x + q);
    TrimEndPadded(x, q);
  }

  // ---------------------------------------------------------------------
  // ASCII case folding
  // ---------------------------------------------------------------------

  function LowerChar(c: char): (d: char)
    ensures 'A' <= c <= 'Z' ==> d as int == c as int + 32
    ensures !('A' <= c <= 'Z') ==> d == c
  {
    if 'A' <= c <= 'Z' then (c as int + 32) as char else c
  }

  /** `toLowerCase` restricted to the ASCII letters. */
  function ToLowerAscii(s: string): (r: string)
    ensures |r| == |s|
    ensures forall i :: 0 <= i < |s| ==> r[i] == LowerChar(s[i])
  {
    seq(|s|, i requires 0 <= i < |s| => LowerChar(s[i]))
  }

  predicate IsAsciiLetter(c: char)
  {
    ('a' <= c <= 'z') || ('A' <= c <= 'Z')
  }

  // ---------------------------------------------------------------------
  // Decimal digits
  // ---------------------------------------------------------------------

  predicate IsDigit(c: char)
  {
    '0' <= c <= '9'
  }

  /** The regular expression `^\d+$` (ASCII digits, at least one). */
  predicate IsDigitString(s: string)
  {
    |s| > 0 && forall i :: 0 <= i < |s| ==> IsDigit(s[i])
  }

  predicate AllDigits(s: string)
  {
    forall i :: 0 <= i < |s| ==> IsDigit(s[i])
  }

  function DigitValue(c: char): nat
    requires IsDigit(c)
  {
    c as int - '0' as int
  }

  function DigitChar(d: nat): (c: char)
    requires d < 10
    ensures IsDigit(c) && DigitValue(c) == d
  {
    ('0' as int + d) as char
  }

  /** The number a string of decimal digits denotes (`Number("007") == 7`). */
  function DigitsValue(s: string): nat
    requires AllDigits(s)
    decreases |s|
  {
    if s == [] then 0 else DigitsValue(s[..|s| - 1]) * 10 + DigitValue(s[|s| - 1])
  }

  /** Leading zeros do not change the value of a digit string. */
  lemma {:induction false} LeadingZeroIgnored(s: string)
    requires AllDigits(s)
    ensures AllDigits("0" + s) && DigitsValue("0" + s) == DigitsValue(s)
    decreases |s|
  {
    if s != [] {
      var t := s[..|s| - 1];
      assert ("0" + s)[..|s|] == "0" + t;
      LeadingZeroIgnored(t);
    }
  }

  /** Decimal rendering of a natural number, without leading zeros. */
  function NatToString(n: nat): (r: string)
    ensures IsDigitString(r)
    ensures DigitsValue(r) == n
    ensures r[0] == '0' ==> n == 0
    decreases n
  {
    if n < 10 then [DigitChar(n)]
    else
      var prefix := NatToString(n / 10);
      var r := prefix + [DigitChar(n % 10)];
      assert r[..|r| - 1] == prefix;
      r
  }

  /** Decimal rendering of an integer, with a leading `-` when negative. */
  function IntToString(i: int): (r: string)
    ensures i >= 0 ==> r == NatToString(i)
    ensures i < 0 ==> r == "-" + NatToString(-i)
  {
    if i < 0 then "-" + NatToString(-i) else NatToString(i)
  }

  // ---------------------------------------------------------------------
  // split / join
  // ---------------------------------------------------------------------

  /** `xs.join(sep)`. */
  function Join(xs: seq<string>, sep: string): string
    decreases |xs|
  {
    if |xs| == 0 then ""
    else if |xs| == 1 then xs[0]
    else xs[0] + sep + Join(xs[1..], sep)
  }

  /** `s.split(c)` for a one-character separator: every field, empty ones
      included, so that joining them back with `c` gives `s`. */
  function Split(s: string, c: char): (r: seq<string>)
    ensures |r| >= 1
    ensures forall k :: 0 <= k < |r| ==> c !in r[k]
    ensures Join(r, [c]) == s
    decreases |s|
  {
    if |s| == 0 then [""]
    else
      var rest := Split(s[1..], c);
      if s[0] == c then
        assert s == "" + [c] + Join(rest, [c]);
        [""] + rest
      else
        var r := [[s[0]] + rest[0]] + rest[1..];
        assert r[1..] == rest[1..];
        r
  }

  /** Index of the first `c` in `s`, or `|s|` when there is none. */
  function IndexOf(s: string, c: char): (i: nat)
    ensures i <= |s|
    ensures c !in s[..i]
    ensures i < |s| ==> s[i] == c
    ensures c !in s <==> i == |s|
    decreases |s|
  {
    if |s| == 0 then 0
    else if s[0] == c then 0
    else
      var j := IndexOf(s[1..], c);
      assert s[..j + 1] == [s[0]] + s[1..][..j];
      j + 1
  }

  /** Index of the last `c` in `s`, if any. */
  function LastIndexOf(s: string, c: char): (r: Option<nat>)
    ensures r.None? <==> c !in s
    ensures r.Some? ==> r.value < |s| && s[r.value] == c && c !in s[r.value + 1..]
    decreases |s|
  {
    if |s| == 0 then None
    else if s[|s| - 1] == c then Some(|s| - 1)
    else
      var r := LastIndexOf(s[..|s| - 1], c);
      assert s == s[..|s| - 1] + [s[|s| - 1]];
      if r.Some? then
        assert s[r.value + 1..] == s[..|s| - 1][r.value + 1..] + [s[|s| - 1]];
        r
      else r
  }

  /** `s` without its trailing run of `c`. */
  function DropTrailing(s: string, c: char): (r: string)
    ensures |r| <= |s| && r == s[..|r|]
    ensures forall k :: |r| <= k < |s| ==> s[k] == c
    ensures r == [] || r[|r| - 1] != c
    decreases |s|
  {
    if |s| > 0 && s[|s| - 1] == c then DropTrailing(s[..|s| - 1], c) else s
  }

  /** The first `c` of `p + [c] + x` is the one after `p` when `p` has none. */
  lemma IndexOfAfterPrefix(p: string, c: char, x: string)
    requires c !in p
    ensures IndexOf(p + [c] + x, c) == |p|
  {
    var s := p + [c] + x;
    assert s[..|p|] == p && s[|p|] == c;
  }

  /** The last `c` of `d + [c] + t` is the one after `d` when `t` has none. */
  lemma LastIndexOfBeforeSuffix(d: string, c: char, t: string)
    requires c !in t
    ensures LastIndexOf(d + [c] + t, c) == Some(|d|)
  {
    var s := d + [c] + t;
    assert s[|d|] == c && s[|d| + 1..] == t;
    var r := LastIndexOf(s, c);
    assert forall k :: |d| < k < |s| ==> s[k] == t[k - |d| - 1];
  }

  /** The first field of a split is the text before the first separator, and
      the remaining fields are the split of the text after it. */
  lemma SplitFirstField(s: string, c: char)
    ensures Split(s, c)[0] == s[..IndexOf(s, c)]
    ensures IndexOf(s, c) < |s| ==> Split(s, c)[1..] == Split(s[IndexOf(s, c) + 1..], c)
    ensures IndexOf(s, c) == |s| ==> |Split(s, c)| == 1
  {
    SplitHead(s, c);
    SplitTail(s, c);
  }

  lemma {:induction false} SplitHead(s: string, c: char)
    ensures Split(s, c)[0] == s[..IndexOf(s, c)]
    decreases |s|
  {
    if |s| > 0 && s[0] != c {
      var t := s[1..];
      SplitHead(t, c);
      assert Split(s, c)[0] == [s[0]] + Split(t, c)[0];
      assert s[..IndexOf(s, c)] == [s[0]] + t[..IndexOf(t, c)];
    } else if |s| > 0 {
      assert Split(s, c) == [""] + Split(s[1..], c);
    }
  }

  lemma {:induction false} SplitTail(s: string, c: char)
    ensures IndexOf(s, c) < |s| ==> Split(s, c)[1..] == Split(s[IndexOf(s, c) + 1..], c)
    ensures IndexOf(s, c) == |s| ==> |Split(s, c)| == 1
    decreases |s|
  {
    if |s| > 0 && s[0] != c {
      var t := s[1..];
      var j := IndexOf(t, c);
      SplitTail(t, c);
      assert Split(s, c)[1..] == Split(t, c)[1..];
      assert IndexOf(s, c) == j + 1;
      if j < |t| {
        assert t[j + 1..] == s[j + 2..];
      }
    } else if |s| > 0 {
      assert IndexOf(s, c) == 0;
      assert Split(s, c) == [""] + Split(s[1..], c);
    }
  }
}

=== FILE: user_controller.dfy ===
/** Avatar handling (`backend/src/controllers/userController.ts`): the
    multer upload filter and file naming, `uploadAvatar`, and
    `chooseDefaultAvatar`. The user collection is a set of ids; the
    `avatar`/`avatarSource` update is not persisted, because the user schema
    declares neither field and the store drops undeclared paths. */
module UserController {
  import opened Wrappers
  import opened Strings
  import opened Store

  /** A multipart file as the client sent it. */
  datatype Incoming = Incoming(originalname: string, size: nat)

  datatype Body =
    | ErrorBody(error: string)
    | AvatarBody(success: bool, avatar: string, user: string)

  datatype Reply = Reply(status: nat, body: Body)

  /** What the upload route ends with: a reply from `uploadAvatar`, or the
      size-limit error that multer hands to the error middleware. */
  datatype UploadResult = Replied(reply: Reply) | FileTooLarge

  const MaxFileSize: nat := 2 * 1024 * 1024
  const AllowedExtensions: seq<string> := [".png", ".jpg", ".jpeg", ".webp", ".gif"]
  const DefaultChoices: seq<string> := ["robot1", "robot2", "colored-circle-1"]
  const NoFile := "No file uploaded"
  const UserNotFound := "User not found"
  const InvalidChoice := "Invalid choice"
  const ServerError := "Server error"

  /** The last path segment, ignoring trailing slashes. */
  function Basename(path: string): (b: string)
    ensures '/' !in b
    // the longest slash-free suffix of the path once trailing slashes go
    ensures var p := DropTrailing(path, '/');
      |b| <= |p| && b == p[|p| - |b|..] && (|b| < |p| ==> p[|p| - |b| - 1] == '/')
  {
    var p := DropTrailing(path, '/');
    match LastIndexOf(p, '/')
    case None => p
    case Some(i) => p[i + 1..]
  }

  /** `b[d]` is the last dot of `b`. */
  predicate LastDotAt(b: string, d: int)
  {
    0 <= d < |b| && b[d] == '.' && '.' !in b[d + 1..]
  }

  /** `path.extname`: from the last dot of the last segment, or "" when that
      segment has no dot, starts with its only leading dot, or is "..". */
  function ExtName(path: string): (r: string)
    ensures r == [] || (r[0] == '.' && '.' !in r[1..] && '/' !in r)
    // a non-empty result is the base name from its last dot, which is not
    // the first character
    ensures r != [] ==> exists d :: 0 < d && LastDotAt(Basename(path), d) && r == Basename(path)[d..]
  {
    var b := Basename(path);
    match LastIndexOf(b, '.')
    case None => ""
    case Some(d) =>
      if d == 0 || b == ".." then ""
      else
        assert b[d..][1..] == b[d + 1..];
        assert LastDotAt(b, d);
        b[d..]
  }

  /** A string has at most one last dot. */
  lemma LastDotUnique(b: string, d1: int, d2: int)
    requires LastDotAt(b, d1) && LastDotAt(b, d2)
    ensures d1 == d2
  {
  }

  /** The extension is empty exactly when the base name is "..", or has no
      dot other than a leading one. */
  lemma ExtNameEmptyCases(path: string)
    ensures var b := Basename(path);
      ExtName(path) == [] <==> b == ".." || forall d :: LastDotAt(b, d) ==> d == 0
  {
    var b := Basename(path);
    match LastIndexOf(b, '.')
    case None =>
    case Some(i) =>
      assert LastDotAt(b, i);
      forall d | LastDotAt(b, d) ensures d == i {
        LastDotUnique(b, d, i);
      }
  }

  /** The parent-directory name has no extension. */
  lemma DotDotHasNoExtension()
    ensures ExtName("..") == ""
  {
    assert DropTrailing("..", '/') == "..";
    assert Basename("..") == "..";
  }

  /** A plain `stem.ext` name has extension `.ext`. */
  lemma ExtNameOfStemAndExt(stem: string, ext: string)
    requires stem != [] && '/' !in stem && '.' !in ext && '/' !in ext
    requires !(stem == "." && ext == "")
    ensures ExtName(stem + "." + ext) == "." + ext
  {
    var name := stem + "." + ext;
    assert name[|name| - 1] != '/';
    assert DropTrailing(name, '/') == name;
    assert '/' !in name;
    assert Basename(name) == name;
    var d := LastIndexOf(name, '.');
    assert name[|stem|] == '.';
    assert name[|stem| + 1..] == ext;
    assert d.value == |stem|;
    assert name != "..";
    assert name[|stem|..] == "." + ext;
  }

  /** A dot-file such as ".png" has no extension, so it is not accepted. */
  lemma DotFileHasNoExtension(ext: string)
    requires '.' !in ext && '/' !in ext
    ensures ExtName("." + ext) == ""
  {
    var name := "." + ext;
    assert name[|name| - 1] != '/';
    assert DropTrailing(name, '/') == name;
    assert '/' !in name;
    assert name[1..] == ext;
    assert LastIndexOf(name, '.') == Some(0);
  }

  /** The multer `fileFilter`: the lower-cased extension is whitelisted. */
  predicate Accepted(originalname: string)
  {
    ToLowerAscii(ExtName(originalname)) in AllowedExtensions
  }

  /** The stored file name: `<id or "anon">-<Date.now()><lower-cased ext>`. */
  function StoredName(userId: Option<string>, now: int, originalname: string): (r: string)
    // the owner, a dash, the clock reading in decimal, then the extension
    ensures now >= 0 ==> StampedName(r, OrElse(userId, "anon"), now, ToLowerAscii(ExtName(originalname)))
    // for an accepted upload under a slash-free id, reading the extension
    // back gives the lower-cased original one
    ensures Accepted(originalname) && (Truthy(userId) ==> '/' !in userId.value) ==>
              ExtName(r) == ToLowerAscii(ExtName(originalname))
  {
    var owner := OrElse(userId, "anon");
    var ext := ToLowerAscii(ExtName(originalname));
    OwnerHasNoSlash(userId);
    StampIsDecimal(owner, now, ext);
    StampKeepsExtension(owner, now, ext);
    owner + "-" + IntToString(now) + ext
  }

  lemma OwnerHasNoSlash(userId: Option<string>)
    ensures (Truthy(userId) ==> '/' !in userId.value) ==> '/' !in OrElse(userId, "anon")
  {
  }

  /** `r` is `owner`, a dash, `now` in decimal digits, then `ext`. */
  ghost predicate StampedName(r: string, owner: string, now: int, ext: string)
  {
    exists digits :: IsDigitString(digits) && DigitsValue(digits) == now && r == owner + "-" + digits + ext
  }

  lemma StampIsDecimal(owner: string, now: int, ext: string)
    ensures now >= 0 ==> StampedName(owner + "-" + IntToString(now) + ext, owner, now, ext)
  {
    if now >= 0 {
      var digits := NatToString(now);
      assert IsDigitString(digits) && DigitsValue(digits) == now;
    }
  }

  lemma StampKeepsExtension(owner: string, now: int, ext: string)
    ensures '/' !in owner && ext in AllowedExtensions ==> ExtName(owner + "-" + IntToString(now) + ext) == ext
  {
    if '/' !in owner && ext in AllowedExtensions {
      AllowedExtensionShape(ext);
      IntToStringHasNoSlash(now);
      StemHasNoSlash(owner, IntToString(now));
      ExtNameOfDotted(owner + "-" + IntToString(now), ext);
    }
  }

  /** Every whitelisted extension is a dot followed by letters. */
  lemma AllowedExtensionShape(e: string)
    requires e in AllowedExtensions
    ensures |e| > 1 && e[0] == '.' && '.' !in e[1..] && '/' !in e[1..]
  {
  }

  /** A rendered integer holds no slash. */
  lemma IntToStringHasNoSlash(i: int)
    ensures '/' !in IntToString(i)
  {
    var d := if i < 0 then NatToString(-i) else NatToString(i);
    assert IsDigitString(d);
    assert '/' !in d;
  }

  lemma StemHasNoSlash(a: string, b: string)
    requires '/' !in a && '/' !in b
    ensures '/' !in a + "-" + b
  {
  }

  /** A name ending in a dotted, dot-free extension after a non-empty,
      slash-free stem has exactly that extension. */
  lemma ExtNameOfDotted(stem: string, e: string)
    requires stem != [] && '/' !in stem
    requires |e| > 1 && e[0] == '.' && '.' !in e[1..] && '/' !in e[1..]
    ensures ExtName(stem + e) == e
  {
    assert e == "." + e[1..];
    assert stem + e == stem + "." + e[1..];
    ExtNameOfStemAndExt(stem, e[1..]);
  }

  /** multer followed by `uploadAvatar`. Store access 0 = the update by id,
      which also throws for an id that is not a document id. */
  function UploadAvatar(users: set<string>, userId: string, file: Option<Incoming>, now: int,
                        fault: StoreFault): (r: UploadResult)
    // a missing or filtered-out file never reaches the store
    ensures file.None? || !Accepted(file.value.originalname) ==> r == Replied(Reply(400, ErrorBody(NoFile)))
    ensures r == FileTooLarge <==> file.Some? && Accepted(file.value.originalname) && file.value.size > MaxFileSize
    ensures r.Replied? && r.reply.status == 200 <==>
              && file.Some? && Accepted(file.value.originalname) && file.value.size <= MaxFileSize
              && !ByIdThrows(fault, 0, userId) && userId in users
    ensures r.Replied? && r.reply.status == 200 ==>
              r.reply.body == AvatarBody(true, "/avatars/" + StoredName(Some(userId), now, file.value.originalname), userId)
    ensures (file.Some? && Accepted(file.value.originalname) && file.value.size <= MaxFileSize &&
             !ByIdThrows(fault, 0, userId) && userId !in users) ==> r == Replied(Reply(404, ErrorBody(UserNotFound)))
    // a failing update, or an id the store cannot cast, answers 500
    ensures (file.Some? && Accepted(file.value.originalname) && file.value.size <= MaxFileSize &&
             ByIdThrows(fault, 0, userId)) ==> r == Replied(Reply(500, ErrorBody(ServerError)))
  {
    if file.None? || !Accepted(file.value.originalname) then Replied(Reply(400, ErrorBody(NoFile)))
    else if file.value.size > MaxFileSize then FileTooLarge
    else if ByIdThrows(fault, 0, userId) then Replied(Reply(500, ErrorBody(ServerError)))
    else if userId !in users then Replied(Reply(404, ErrorBody(UserNotFound)))
    else
      var avatar := "/avatars/" + StoredName(Some(userId), now, file.value.originalname);
      Replied(Reply(200, AvatarBody(true, avatar, userId)))
  }

  /** The static path of a built-in avatar. */
  function DefaultAvatarPath(choice: string): string
  {
    "/default-avatars/" + choice + ".png"
  }

  /** Different choices are served from different paths. */
  lemma DefaultAvatarPathInjective(a: string, b: string)
    requires DefaultAvatarPath(a) == DefaultAvatarPath(b)
    ensures a == b
  {
    var pa := DefaultAvatarPath(a);
    var n := |"/default-avatars/"|;
    assert |a| == |b|;
    assert a == pa[n..n + |a|];
    assert b == DefaultAvatarPath(b)[n..n + |b|];
  }

  /** `chooseDefaultAvatar`. `choice` is absent when the body has none.
      Store access 0 = the update by id, which also throws for an id that is
      not a document id. */
  function ChooseDefaultAvatar(users: set<string>, userId: string, choice: Option<string>,
                               fault: StoreFault): (r: Reply)
    ensures choice.None? || choice.value !in DefaultChoices ==> r == Reply(400, ErrorBody(InvalidChoice))
    ensures r.status == 200 <==> choice.Some? && choice.value in DefaultChoices && !ByIdThrows(fault, 0, userId) && userId in users
    ensures r.status == 200 ==> r.body == AvatarBody(true, DefaultAvatarPath(choice.value), userId)
    ensures choice.Some? && choice.value in DefaultChoices && !ByIdThrows(fault, 0, userId) && userId !in users ==>
              r == Reply(404, ErrorBody(UserNotFound))
    // a failing update, or an id the store cannot cast, answers 500
    ensures choice.Some? && choice.value in DefaultChoices && ByIdThrows(fault, 0, userId) ==>
              r == Reply(500, ErrorBody(ServerError))
  {
    if choice.None? || choice.value !in DefaultChoices then Reply(400, ErrorBody(InvalidChoice))
    else if ByIdThrows(fault, 0, userId) then Reply(500, ErrorBody(ServerError))
    else if userId !in users then Reply(404, ErrorBody(UserNotFound))
    else Reply(200, AvatarBody(true, DefaultAvatarPath(choice.value), userId))
  }

  /** The path segment "me" is not a document id: choosing a default
      avatar for it answers 500, whatever the users are. */
  lemma MeIsNotAUserId(users: set<string>)
    ensures ChooseDefaultAvatar(users, "me", Some("robot1"), Healthy) == Reply(500, ErrorBody(ServerError))
  {
    assert !IsObjectId("me");
  }

  /** The filter ignores case: a name is accepted exactly when its
      extension, lower-cased, is whitelisted, so "photo.PNG" passes. */
  lemma AcceptedIgnoresCase(stem: string, ext: string)
    requires stem != [] && '/' !in stem && '.' !in ext && '/' !in ext
    ensures Accepted(stem + "." + ext) <==> ToLowerAscii("." + ext) in AllowedExtensions
  {
    var name := stem + "." + ext;
    if stem == "." && ext == "" {
      assert name == "..";
      DotDotHasNoExtension();
      assert |ToLowerAscii("." + ext)| == 1;
    } else {
      ExtNameOfStemAndExt(stem, ext);
    }
  }
}

=== FILE: wrappers.dfy ===
/** Failure-compatible wrappers used throughout the model: `Option` for the
    source's `undefined`/`null` values and `Result` for thrown errors and
    rejected requests. */
module Wrappers {

  /** A value that may be absent (`undefined` / `null` in the source). */
  datatype Option<+T> = None | Some(value: T) {

    /** The value if present, otherwise `default` (the source's `??`). */
    function GetOr(default: T): T
    {
      match this
      case Some(v) => v
      case None => default
    }
  }

  /** The outcome of an operation that may throw or be rejected. */
  datatype Result<+R, +E> = Success(value: R) | Failure(error: E) {

    predicate IsFailure()
    {
      Failure?
    }

    function PropagateFailure<U>(): Result<U, E>
      requires Failure?
    {
      Failure(error)
    }

    function Extract(): R
      requires Success?
    {
      value
    }
  }
}
